=== FILE: README.md ===
# Silence slicer: a Dafny model of its timing core

The silence slicer takes a talking-head video, finds the silent stretches with
ffmpeg's `silencedetect` filter, and writes a Shotcut/MLT project. In that
project the video is cut into clips at the silences and the clips are laid end
to end on one track. There are two revisions of the script:

- `smart_silence_slicer.py` (current). It runs two detector passes: silence
  starts ("offsets") at a sensitive threshold and silence ends ("onsets") at a
  louder one. It pairs them into silence spans. It cuts the video at every span
  endpoint, merging cuts closer than a minimum segment length. Every entry
  except the last stops one frame short of its segment's end.
- `smart_silence_slicer-old.py` (old). It runs a single detector pass and zips
  its starts and ends by position. It drops silences that come too soon after
  the previous kept one. The clips are the gaps between silences. Each clip
  after the first goes in one frame after the previous clip's end.

This project models the arithmetic and list logic of both revisions. Times are
`real` seconds. The only failure either revision can hit in this logic is a
division by a zero frame rate. It is modelled as `Err(ZeroDivision)`.

Modules, one per file:

- `Spans` (`spans.dfy`): the `Span(start, end)` record and sequence facts used
  throughout: subsequences, strictly increasing times, contiguous chains.
- `Digits` (`digits.dfy`): `str(n)` for naturals and zero padding, with their
  read-back value.
- `Timecode` (`timecode.dfy`): the current `format_time`, from the rounded
  millisecond count on, and a parser that inverts it.
- `Pairing` (`pairing.dfy`): the current revision's offset/onset pairing loop,
  as a recursive definition and as the two-cursor loop.
- `Segments` (`segments.dfy`): the current revision's segment builder, lines
  120-145 of `create_mlt_file`.
- `Mlt` (`mlt.dfy`): chain ids, chains, entries and the error type shared by
  both revisions.
- `Playlist` (`playlist.dfy`): the current revision's project and its out-point
  rule.
- `OldSlicer` (`old_slicer.dfy`): the old revision's zip, min-gap filter, gap
  segments, in-point rule and project.
- `Pipeline` (`pipeline.dfy`): both revisions end to end, plus worked examples.

## Behaviour of the code worth knowing

The model follows the code in every case below.

- **Silence spans stay in the timeline.** The script's docstring
  (`smart_silence_slicer.py`, line 113) says "an MLT file with clips split at
  silence boundaries". The old revision's gap builder
  (`smart_silence_slicer-old.py`, lines 167-187) leaves the silences out: its
  clips are the stretches between silences. The current segment builder does
  not. Both ends of every silence become cut candidates, and a cut is kept only
  when it lies at least the minimum past the last kept cut. So a silence at
  least the minimum long, starting at least the minimum after the previous kept
  cut, becomes a segment of its own, unless it ends less than the minimum
  before `D`: then the tail fix-up pops its end and the silence is merged into
  the last segment. Silence `(5, 9.95)` in a 10 s video with a 0.1 s minimum
  gives `(0,5) (5,10)` (`Pipeline.TailSilenceMerged`).
- **Two silences.** Take offsets `[1, 5]`, onsets `[2, 6]`, a 10 s video and a
  0.1 s minimum. Leaving the silences out, as the old revision's clips do,
  would give `[(0,1), (2,5), (6,10)]`. The current code gives `[(0,1), (1,2), (2,5), (5,6), (6,10)]`. See `Pipeline.KeepsSilences`.
- **A very short silence.** Take offset `[1]`, onset `[1.05]`, a 10 s video and
  a 0.5 s minimum. The silence is shorter than the minimum, yet it still cuts
  the video: the code drops the cut at 1.05, but the cut at 1.0 is already 1 s
  past 0, so it stays. The result is `[(0,1), (1,10)]`. See
  `Pipeline.ShortSilenceStillCuts`.
- **One video only.** Each revision builds a project for exactly one input
  video.
- **Segments of the minimum length.** The segments are expected to partition
  `[0, D]` into pieces no shorter than the minimum segment length. Every instant
  of a non-empty video lies in some segment whatever the silences are
  (`Segments.BuildSegmentsCover`). When the minimum is not negative, one
  silence end past `D` is harmless to the partition: the tail fix-up pops the
  last cut and puts `D` back, so
  `D = 10`, silence `(5, 12)`, minimum 0.1 gives `(0,5) (5,10)`
  (`Pipeline.EndPastVideo`). But the popped cut is not replaced by an earlier
  one, so the last segment can end up shorter than the minimum: silence
  `(9.95, 10.2)` gives `(0,9.95) (9.95,10)`, a 50 ms last segment
  (`Pipeline.ShortLastSegment`). When the minimum is not negative, a segment
  past `D` needs two kept cuts past `D`. The command line accepts a negative
  minimum, though (`smart_silence_slicer.py`, lines 256-257); then nothing is
  dropped or popped, and silence `(5, 10.5)` in a 10 s video with minimum -1
  gives `(0,5) (5,10) (10,10.5)`, ending past `D` (`Pipeline.NegativeMinimum`).
  A negative silence time gives a segment before 0. The partition
  lemma therefore takes every silence endpoint within `[0, D]` as a
  precondition (`Segments.WithinVideo`).

## Model

| member | source | states |
|---|---|---|
| Pairing.SkipCount | smart_silence_slicer.py:53-54 | the inner loop's step count: every skipped time is at or before the target, and the time it stops at is after it |
| Pairing.SkipIndex | smart_silence_slicer.py:53-54 | the inner `while` over an iterator stops after exactly `SkipCount` steps past its start |
| Pairing.Pair | smart_silence_slicer.py:43-66 | the pairing as a recursive definition; no contract of its own, see `PairShape`, `PairSubsequences`, `PairEndsFrom`, `PairEndpoints` and `PairLoop` |
| Pairing.PairShape | smart_silence_slicer.py:43-66 | every emitted silence starts before it ends; each one starts after the previous one ends; the first starts at the first offset; nothing is emitted exactly when there are no offsets or no onset after the first offset |
| Pairing.PairSubsequences | smart_silence_slicer.py:43-66 | emitted starts are an order-preserving subsequence of the offsets, and emitted ends of the onsets; so there are at most as many silences as either list holds |
| Pairing.PairEndsFrom | smart_silence_slicer.py:53-60 | the onsets paired come only from those after the first offset |
| Pairing.PairEndpoints | smart_silence_slicer.py:60 | every emitted time is one of the detected times |
| Pairing.PairLoop | smart_silence_slicer.py:43-66 | the two-iterator loop computes exactly the recursive pairing |
| Digits.DigitChar | smart_silence_slicer.py:109 | a digit below 10 renders as the character of that value |
| Digits.Decimal | smart_silence_slicer.py:109 | `str(n)` is a non-empty string of digits |
| Digits.ValueOfDecimal | smart_silence_slicer.py:109 | reading back `str(n)` gives `n` |
| Digits.DecimalInjective | smart_silence_slicer.py:109 | distinct numbers render as distinct strings |
| Digits.DecimalLength | smart_silence_slicer.py:109 | `n` needs at most `k` digits exactly when it is below 10^k |
| Digits.PadZeros | smart_silence_slicer.py:109 | the `:02d`/`:03d` zero padding; no contract of its own, see `PadZerosValue` |
| Digits.PadZerosValue | smart_silence_slicer.py:109 | the `0W` padding keeps a digit string's value and reaches width `W` exactly when the string was shorter |
| Timecode.Split | smart_silence_slicer.py:101-107 | the split of a millisecond count is a normal clock (minutes, seconds below 60; millis below 1000) that denotes that count |
| Timecode.SplitUnique | smart_silence_slicer.py:101-107 | a normal clock is the split of the count it denotes |
| Timecode.PaddedField | smart_silence_slicer.py:109 | a field below 10^W renders as exactly `W` digits of the same value |
| Timecode.Format | smart_silence_slicer.py:97-109 | `format_time` from the rounded millisecond count; no contract of its own, see `ParseFormat`, `FormatInjective` and `FormatWidth` |
| Timecode.ParseLayout | smart_silence_slicer.py:109 | the layout `H..H:MM:SS.mmm` reads back as the value of its four fields |
| Timecode.ParseFormat | smart_silence_slicer.py:101-109 | parsing a formatted timecode gives back the millisecond count |
| Timecode.FormatInjective | smart_silence_slicer.py:101-109 | two distinct millisecond counts never share a timecode |
| Timecode.FormatWidth | smart_silence_slicer.py:101-109 | the timecode is 12 characters exactly below 100 hours and longer above; hours never wrap |
| Segments.CutSet | smart_silence_slicer.py:121-124 | the set `split_points`: 0, the duration and both ends of every silence; no contract of its own, see `SortedCuts` and `BuildSegmentsBoundaries` |
| Segments.Insert | smart_silence_slicer.py:121-126 | adding one point to a sorted set keeps it sorted and without duplicates, and adds exactly that point |
| Segments.SortedCuts | smart_silence_slicer.py:121-126 | `sorted(list(split_points))` is strictly increasing and holds exactly 0, the duration and every silence endpoint |
| Segments.SortedUnique | smart_silence_slicer.py:126 | a strictly increasing list is determined by its set of elements |
| Segments.KeepSpaced | smart_silence_slicer.py:129-132 | the sweep keeps an order-preserving subsequence whose points are each at least the minimum past the previous kept one; a first point far enough past the start is kept |
| Segments.KeepSpacedAppend | smart_silence_slicer.py:129-132 | sweeping two stretches in a row is sweeping the second from the last point the first kept |
| Segments.KeepSpacedStep | smart_silence_slicer.py:130-132 | each point is appended exactly when it lies at least the minimum past the last point kept so far, and dropped otherwise |
| Segments.SweepLoop | smart_silence_slicer.py:129-132 | the `for` loop over the sorted points computes the first point followed by the sweep of the rest |
| Segments.Kept | smart_silence_slicer.py:129-132 | `filtered_points` after the sweep: the first sorted point, then the sweep of the rest; no contract of its own, see `KeepSpaced`, `KeepSpacedStep` and `SweepLoop` |
| Segments.FixTail | smart_silence_slicer.py:134-138 | after the tail fix-up the last point is the duration |
| Segments.FixTailShape | smart_silence_slicer.py:134-138 | the fix-up of spaced points in `[0, D]` gives spaced points from 0 to `D`, or just 0 and `D` |
| Segments.CutsShape | smart_silence_slicer.py:121-138 | the cuts of a video run from 0 to `D`, strictly increasing, spaced by the minimum unless there are only two |
| Segments.Cuts | smart_silence_slicer.py:126-138 | the cut points after the sweep and the tail fix-up; no contract of its own, see `CutsShape` and `CutsEnds` |
| Segments.ToSegments | smart_silence_slicer.py:141-145 | every segment is non-empty and runs between two of the points |
| Segments.ToSegmentsIncreasing | smart_silence_slicer.py:141-145 | over increasing points, the segments are exactly the spans between consecutive points |
| Segments.SegmentsOfCuts | smart_silence_slicer.py:141-145 | segments over well-formed cuts partition the video |
| Segments.BuildSegments | smart_silence_slicer.py:120-145 | the segment builder of `create_mlt_file`; no contract of its own, see `BuildSegmentsPartition`, `BuildSegmentsCover`, `BuildSegmentsBoundaries` and `BuildSegmentsNoSilence` |
| Segments.BuildSegmentsPartition | smart_silence_slicer.py:120-145 | with silences inside a non-empty video, the segments are non-empty, contiguous, run from 0 to `D`, add up to `D`, and each is at least the minimum long unless there is only one |
| Segments.BuildSegmentsCover | smart_silence_slicer.py:120-145 | for any silences, every instant of a non-empty video lies in some segment |
| Segments.CutsEnds | smart_silence_slicer.py:121-138 | for any silences, the cuts start at or before 0 and end at the duration |
| Segments.SegmentsCoverPoints | smart_silence_slicer.py:141-145 | between a first point and a larger last point, every instant lies in a segment of consecutive points, whatever the points in between |
| Segments.BuildSegmentsBoundaries | smart_silence_slicer.py:120-145 | for any input, every segment boundary is 0, the duration or a silence endpoint |
| Segments.BuildSegmentsNoSilence | smart_silence_slicer.py:120-145 | with no silences the video is one segment, or none when it is empty |
| Mlt.ChainId | smart_silence_slicer.py:184 | `chain{i}` is `chain` followed by digits |
| Mlt.ChainIdInjective | smart_silence_slicer.py:184 | distinct clip numbers give distinct chain ids |
| Mlt.Chains | smart_silence_slicer.py:183-196 | one chain per segment, chain `i` named `chain{i}`, each playing the whole video from the same file |
| Mlt.ChainsDistinct | smart_silence_slicer.py:183-196 | no two chains of a project share an id |
| Playlist.OutPoint | smart_silence_slicer.py:203-208 | one entry's out-point: the segment end, one frame earlier unless last, clamped to the start; no contract of its own, see `Entries` and `EntriesAbut` |
| Playlist.Entries | smart_silence_slicer.py:202-208 | entry `i` plays `chain{i}` from its segment's start; it never goes out before it goes in; with a non-negative frame it stays inside its segment; the last runs to its segment's end; others end one frame early unless that would cross the start |
| Playlist.EntriesAbut | smart_silence_slicer.py:202-208 | over contiguous segments, each entry goes out at most one frame before the next goes in, and never after |
| Playlist.BuildProject | smart_silence_slicer.py:147-208 | the project fails exactly when the frame-rate numerator is 0; otherwise it spans the video, has one chain per segment wired to one entry each, and its entries follow the out-point rule with frame `den/num` |
| Pipeline.Slice | smart_silence_slicer.py:263-271 | the current pipeline fails exactly when the frame-rate numerator is 0 |
| Pipeline.SliceTimeline | smart_silence_slicer.py:43-208 | detected times inside a non-empty video give a playlist from 0 to `D`, entries inside the video and in order, at most one frame left out at each cut |
| Pipeline.PairWithin | smart_silence_slicer.py:43-66 | detected times inside the video pair into silences inside it |
| Pipeline.SegmentsTimeline | smart_silence_slicer.py:120-208 | the entries over the segments of a non-empty video form its timeline |
| Pipeline.EntriesTimeline | smart_silence_slicer.py:202-208 | the entries over a partition of the video form its timeline |
| Pipeline.InVideo | smart_silence_slicer.py:141-145 | contiguous non-empty segments from 0 to `D` lie inside `[0, D]` |
| Pipeline.KeepsSilences | smart_silence_slicer.py:43-145 | offsets `[1,5]`, onsets `[2,6]`, `D = 10`, minimum 0.1 give the five segments `(0,1) (1,2) (2,5) (5,6) (6,10)` |
| Pipeline.ShortSilenceStillCuts | smart_silence_slicer.py:43-145 | offset `[1]`, onset `[1.05]`, `D = 10`, minimum 0.5 give `(0,1) (1,10)` |
| Pipeline.CutsOfSpaced | smart_silence_slicer.py:129-138 | sorted cuts already spaced and ending at `D` pass the sweep and the tail fix-up unchanged |
| Pipeline.KeptDropsThird | smart_silence_slicer.py:129-132 | of four sorted cuts, the sweep drops a third that lies too close to the second |
| Pipeline.EndPastVideo | smart_silence_slicer.py:120-145 | `D = 10`, silence `(5, 12)`, minimum 0.1 give `(0,5) (5,10)`: the cut past the end is popped |
| Pipeline.NegativeMinimum | smart_silence_slicer.py:120-145 | `D = 10`, silence `(5, 10.5)`, minimum -1 give `(0,5) (5,10) (10,10.5)`: nothing is dropped or popped, and the last segment lies past the end |
| Pipeline.TailSilenceMerged | smart_silence_slicer.py:120-145 | `D = 10`, silence `(5, 9.95)`, minimum 0.1 give `(0,5) (5,10)`: the silence ends too close to the end and is merged into the last segment |
| Pipeline.ShortLastSegment | smart_silence_slicer.py:120-145 | `D = 10`, silence `(9.95, 10.2)`, minimum 0.1 give `(0,9.95) (9.95,10)`, whose last segment is shorter than the minimum |
| OldSlicer.Zip | smart_silence_slicer-old.py:52 | `zip` pairs the i-th start with the i-th end, as many pairs as the shorter list |
| OldSlicer.FilterFrom | smart_silence_slicer-old.py:94-98 | the loop keeps an order-preserving subsequence in which each silence starts at least `min_gap` after the previous kept end; a first silence far enough after `last_end` is kept |
| OldSlicer.FilterSlicePoints | smart_silence_slicer-old.py:86-100 | the same from `last_end = 0`; no silences give no silences |
| OldSlicer.FilterFromAppend | smart_silence_slicer-old.py:94-98 | filtering two stretches in a row is filtering the second from the end of the last silence the first kept |
| OldSlicer.FilterStep | smart_silence_slicer-old.py:96-98 | each silence is appended exactly when it starts at least `min_gap` after the last kept end, and dropped otherwise |
| OldSlicer.FilterLoop | smart_silence_slicer-old.py:86-100 | the early return and the loop with `last_end` compute the filter |
| OldSlicer.FilterFixed | smart_silence_slicer-old.py:94-98 | the filter leaves a list unchanged exactly when it is already spaced |
| OldSlicer.FilterIdempotent | smart_silence_slicer-old.py:86-100 | filtering twice is filtering once |
| OldSlicer.Normalize | smart_silence_slicer-old.py:173-175 | the swap orders a silence's two ends and keeps both |
| OldSlicer.GapsFrom | smart_silence_slicer-old.py:171-187 | every clip is non-empty |
| OldSlicer.GapSegments | smart_silence_slicer-old.py:167-187 | every clip is non-empty; with no silences, a non-empty video is one clip and an empty one none |
| OldSlicer.GapSegmentsBoundaries | smart_silence_slicer-old.py:167-187 | every clip starts at 0 or at a silence's end, and ends at a silence's start or at `D` |
| OldSlicer.GapSegmentsOrdered | smart_silence_slicer-old.py:167-187 | for chained silences, clips come in order without overlap and none overlaps a silence |
| OldSlicer.GapSegmentsCover | smart_silence_slicer-old.py:167-187 | for any silences, every instant of a non-empty video lies in a clip or in a silence |
| OldSlicer.Truncate | smart_silence_slicer-old.py:131 | `int(x)` truncates toward zero |
| OldSlicer.OldEntries | smart_silence_slicer-old.py:225-234 | entry `i` plays `chain{i}` up to its clip's end; the first goes in at its clip's start, each later one a frame after the previous one goes out |
| OldSlicer.OldEntryReversed | smart_silence_slicer-old.py:225-234 | an entry after the first goes out before it goes in exactly when its clip ends less than a frame after the previous clip's end |
| OldSlicer.OldEntryReversedExample | smart_silence_slicer-old.py:225-234 | clips ending at 1 s and 1.01 s at 30 fps give a second entry that goes out before it goes in |
| OldSlicer.BuildOldProject | smart_silence_slicer-old.py:109-234 | the old project fails exactly when the frame rate is 0; otherwise the profile rate is the truncated frame rate, the black length is `D + 0.017`, one chain per clip is wired to one entry each, and the entries follow the one-frame in-point rule |
| Pipeline.OldSlice | smart_silence_slicer-old.py:315-323 | the old pipeline fails exactly when the frame rate is 0 |
| Pipeline.OldSliceTimeline | smart_silence_slicer-old.py:52-234 | with each start before its end and a non-negative gap, the kept silences are chained, the clips come in order clear of every kept silence, and each entry after the first goes in exactly one frame after the previous one goes out |

## Left out

- Running ffmpeg and ffprobe, and the regular expressions that read their
  output. The detected times and the video information are inputs.
- The MD5 hash of the video file. It is an input string.
- `round(seconds * 1000)` in `format_time`. Rounding a float is left out; the
  timecode starts from the rounded millisecond count.
- The old revision's `format_time`. It formats floats with `%06.3f`, which is
  float printing.
- The old revision's frame-rate parsing (`num / den` or `float(...)`). The
  frame rate is an input.
- Float arithmetic. Times are exact reals, so rounding is not modelled in
  `end - frame` and `1.0 / frame_rate`, nor in the subtractions of the spacing
  tests (`smart_silence_slicer.py`, lines 131 and 134) and of the old min-gap
  test (`smart_silence_slicer-old.py`, line 96). In floats a tie can flip a
  keep/drop decision there: `0.3 - 0.2 >= 0.1` is false in floats and true over
  the reals.
- XML serialisation and the fixed attributes of the document (profile
  constants, transitions, tractor properties, pretty-printing, the file
  write). The model keeps each element's timing and wiring content.
- Command-line parsing, usage text, progress and debug prints, and the
  file-exists check.
- Segments.BuildSegmentsPartition: requires every silence endpoint to lie
  within `[0, D]` and `D > 0`; the code has no such guard. Without it the
  last segment can be shorter than the minimum (`Pipeline.ShortLastSegment`),
  a negative minimum lets a single silence end past `D` leave a segment past
  the end (`Pipeline.NegativeMinimum`), and a negative time starts a segment
  before 0.
- Pipeline.SliceTimeline: requires detected times within `[0, D]` and a
  positive frame rate, for the same reason.
- Several input videos in one project. Neither revision has this feature.

=== FILE: digits.dfy ===
/** Decimal rendering of natural numbers as Python's `str(n)` and
    `f"{n:0Wd}"` produce them, and the digit-string reading that inverts it. */
module Digits {

  predicate IsDigit(c: char)
  {
    '0' <= c <= '9'
  }

  predicate AllDigits(s: string)
  {
    forall i :: 0 <= i < |s| ==> IsDigit(s[i])
  }

  function DigitChar(d: nat): (c: char)
    requires d < 10
    ensures IsDigit(c)
    ensures c as int - '0' as int == d
  {
    (d + '0' as int) as char
  }

  /** The shortest decimal rendering of `n`, as `str(n)`. */
  function Decimal(n: nat): (s: string)
    ensures 1 <= |s|
    ensures AllDigits(s)
    decreases n
  {
    if n < 10 then [DigitChar(n)] else Decimal(n / 10) + [DigitChar(n % 10)]
  }

  /** The number a string of decimal digits denotes; leading zeros are allowed. */
  function Value(s: string): nat
    requires AllDigits(s)
  {
    if |s| == 0 then 0 else Value(s[..|s| - 1]) * 10 + (s[|s| - 1] as int - '0' as int)
  }

  /** `s` left-padded with zeros to at least `width` characters, as the `0W` format spec does. */
  function PadZeros(s: string, width: nat): (r: string)
    decreases width - |s|
  {
    if |s| >= width then s else PadZeros(['0'] + s, width)
  }

  function Pow10(k: nat): nat
  {
    if k == 0 then 1 else 10 * Pow10(k - 1)
  }

  /** Reading back a decimal rendering gives the number. */
  lemma {:induction false} ValueOfDecimal(n: nat)
    ensures Value(Decimal(n)) == n
    decreases n
  {
    if n >= 10 {
      var p := Decimal(n / 10);
      assert Decimal(n) == p + [DigitChar(n % 10)];
      assert (p + [DigitChar(n % 10)])[..|p|] == p;
      ValueOfDecimal(n / 10);
    }
  }

  /** Decimal renderings of distinct numbers are distinct strings. */
  lemma DecimalInjective(m: nat, n: nat)
    requires Decimal(m) == Decimal(n)
    ensures m == n
  {
    ValueOfDecimal(m);
    ValueOfDecimal(n);
  }

  /** `n` needs at most `k` digits exactly when it is below 10^k. */
  lemma {:induction false} DecimalLength(n: nat, k: nat)
    requires k >= 1
    ensures |Decimal(n)| <= k <==> n < Pow10(k)
    decreases n
  {
    if n < 10 {
      PowAtLeastTen(k);
    } else if k == 1 {
      assert Pow10(1) == 10;
      assert |Decimal(n)| == |Decimal(n / 10)| + 1;
    } else {
      DecimalLength(n / 10, k - 1);
      assert |Decimal(n)| == |Decimal(n / 10)| + 1;
      assert n / 10 < Pow10(k - 1) <==> n < 10 * Pow10(k - 1);
    }
  }

  lemma {:induction false} PowAtLeastTen(k: nat)
    requires k >= 1
    ensures Pow10(k) >= 10
  {
    if k > 1 {
      PowAtLeastTen(k - 1);
    }
  }

  /** A leading zero does not change the value of a digit string. */
  lemma {:induction false} ValueLeadingZero(s: string)
    requires AllDigits(s)
    ensures AllDigits(['0'] + s)
    ensures Value(['0'] + s) == Value(s)
    decreases |s|
  {
    if |s| > 0 {
      var z := ['0'] + s;
      assert z[..|z| - 1] == ['0'] + s[..|s| - 1];
      ValueLeadingZero(s[..|s| - 1]);
    }
  }

  /** Zero padding keeps the string a digit string of the same value and reaches the width. */
  lemma {:induction false} PadZerosValue(s: string, width: nat)
    requires AllDigits(s)
    ensures AllDigits(PadZeros(s, width))
    ensures Value(PadZeros(s, width)) == Value(s)
    ensures |PadZeros(s, width)| == if |s| >= width then |s| else width
    decreases width - |s|
  {
    if |s| < width {
      ValueLeadingZero(s);
      PadZerosValue(['0'] + s, width);
    }
  }
}

=== FILE: mlt.dfy ===
/** The records both revisions write into the Shotcut/MLT project document:
    one `chain` producer per clip, and the `entry` elements of the `playlist0`
    track that cut each chain down to its clip. Times stay in seconds here;
    `Timecode` renders them. */
module Mlt {
  import opened Digits

  /** A `chain` element: its id, its `out` (and `length`) — the whole video —,
      the file it plays and the file's hash. */
  datatype Chain = Chain(id: string, out: real, resource: string, hash: string)

  /** An `entry` element: the producer it plays and its in and out points. */
  datatype Entry = Entry(producer: string, inPoint: real, outPoint: real)

  /** The one way the timing core fails: dividing by a zero frame rate. */
  datatype Error = ZeroDivision

  datatype Result<T> = Ok(value: T) | Err(error: Error)

  /** `f"chain{i}"`. */
  function ChainId(i: nat): (r: string)
    ensures |r| > 5 && r[..5] == "chain"
    ensures AllDigits(r[5..])
  {
    var r := "chain" + Decimal(i);
    assert r[5..] == Decimal(i);
    r
  }

  /** Distinct clip numbers name distinct chains. */
  lemma ChainIdInjective(i: nat, j: nat)
    requires ChainId(i) == ChainId(j)
    ensures i == j
  {
    assert ChainId(i)[5..] == Decimal(i);
    assert ChainId(j)[5..] == Decimal(j);
    DecimalInjective(i, j);
  }

  /** The chains of `smart_silence_slicer.py` lines 183-196 and of
      `smart_silence_slicer-old.py` lines 197-214: chain `i` for each of
      `count` clips, every one playing the whole video. */
  function Chains(count: nat, length: real, resource: string, hash: string): (r: seq<Chain>)
    ensures |r| == count
    ensures forall i :: 0 <= i < count ==> r[i].id == ChainId(i)
    ensures forall i :: 0 <= i < count ==> r[i].out == length && r[i].resource == resource && r[i].hash == hash
  {
    if count == 0 then [] else Chains(count - 1, length, resource, hash) + [Chain(ChainId(count - 1), length, resource, hash)]
  }

  /** No two chains of a project share an id. */
  lemma ChainsDistinct(count: nat, length: real, resource: string, hash: string)
    ensures var r := Chains(count, length, resource, hash);
      forall i, j :: 0 <= i < j < count ==> r[i].id != r[j].id
  {
    var r := Chains(count, length, resource, hash);
    forall i, j | 0 <= i < j < count ensures r[i].id != r[j].id {
      if r[i].id == r[j].id {
        ChainIdInjective(i, j);
      }
    }
  }

  /** Entries that name the chains in order: entry `i` plays chain `i`, and so each
      entry plays exactly one chain and each chain is played by exactly one entry. */
  predicate Wired(chains: seq<Chain>, entries: seq<Entry>)
  {
    && |chains| == |entries|
    && forall i :: 0 <= i < |entries| ==> entries[i].producer == chains[i].id
  }
}

=== FILE: old_slicer.dfy ===
/** The old revision of the slicer: silences come from a single detector pass
    whose starts and ends are paired by position, a min-gap filter thins them,
    the clips are the gaps between silences, and each clip after the first is
    entered one frame after the previous clip's end. Line numbers in the
    comments below refer to `smart_silence_slicer-old.py`. */
module OldSlicer {
  import opened Spans
  import opened Mlt

  /** Line 52: `list(zip(starts, ends))`, pairing the i-th start with the i-th end and
      dropping the surplus of the longer list. */
  function Zip(starts: seq<real>, ends: seq<real>): (r: seq<Span>)
    ensures |r| == if |starts| <= |ends| then |starts| else |ends|
    ensures forall i :: 0 <= i < |r| ==> r[i] == Span(starts[i], ends[i])
  {
    if |starts| == 0 || |ends| == 0 then [] else [Span(starts[0], ends[0])] + Zip(starts[1..], ends[1..])
  }

  /** Kept silences: the first starts at least `minGap` after `lastEnd`, and each later
      one at least `minGap` after the end of the one before. */
  predicate GapSpaced(lastEnd: real, s: seq<Span>, minGap: real)
  {
    && (|s| > 0 ==> s[0].start - lastEnd >= minGap)
    && forall i :: 0 < i < |s| ==> s[i].start - s[i - 1].end >= minGap
  }

  /** Lines 94-98: the loop of `filter_slice_points` from a given `last_end`. */
  function FilterFrom(lastEnd: real, silences: seq<Span>, minGap: real): (r: seq<Span>)
    ensures IsSubseq(r, silences)
    ensures GapSpaced(lastEnd, r, minGap)
    ensures |silences| > 0 && silences[0].start - lastEnd >= minGap ==> |r| > 0 && r[0] == silences[0]
    decreases |silences|
  {
    if |silences| == 0 then []
    else if silences[0].start - lastEnd >= minGap then
      var tail := FilterFrom(silences[0].end, silences[1..], minGap);
      assert ([silences[0]] + tail)[1..] == tail;
      [silences[0]] + tail
    else FilterFrom(lastEnd, silences[1..], minGap)
  }

  /** Lines 86-100: `filter_slice_points`, starting from `last_end = 0`. */
  function FilterSlicePoints(silences: seq<Span>, minGap: real): (r: seq<Span>)
    ensures |silences| == 0 ==> r == []
    ensures IsSubseq(r, silences)
    ensures GapSpaced(0.0, r, minGap)
    ensures |silences| > 0 && silences[0].start >= minGap ==> |r| > 0 && r[0] == silences[0]
  {
    if |silences| == 0 then [] else FilterFrom(0.0, silences, minGap)
  }

  /** The `last_end` of the loop: the end of the last kept silence, or `lastEnd` when
      none has been kept yet. */
  function LastEndOr(lastEnd: real, kept: seq<Span>): real
  {
    if |kept| == 0 then lastEnd else kept[|kept| - 1].end
  }

  /** Filtering two stretches one after the other: the second starts from the end of
      the last silence the first kept. */
  lemma {:induction false} FilterFromAppend(lastEnd: real, a: seq<Span>, b: seq<Span>, minGap: real)
    ensures FilterFrom(lastEnd, a + b, minGap)
      == FilterFrom(lastEnd, a, minGap) + FilterFrom(LastEndOr(lastEnd, FilterFrom(lastEnd, a, minGap)), b, minGap)
    decreases |a|
  {
    if |a| == 0 {
      assert a + b == b;
    } else {
      assert (a + b)[0] == a[0] && (a + b)[1..] == a[1..] + b;
      if a[0].start - lastEnd >= minGap {
        FilterFromAppend(a[0].end, a[1..], b, minGap);
        var k := FilterFrom(a[0].end, a[1..], minGap);
        assert LastEndOr(lastEnd, [a[0]] + k) == LastEndOr(a[0].end, k);
      } else {
        FilterFromAppend(lastEnd, a[1..], b, minGap);
      }
    }
  }

  /** Lines 96-98 one silence at a time: the `i`-th silence is kept exactly when it
      starts at least `minGap` after the end of the last silence kept before it, and
      otherwise the kept silences stay as they were. */
  lemma FilterStep(lastEnd: real, silences: seq<Span>, minGap: real, i: nat)
    requires i < |silences|
    ensures var before := FilterFrom(lastEnd, silences[..i], minGap);
      FilterFrom(lastEnd, silences[..i + 1], minGap)
        == before + (if silences[i].start - LastEndOr(lastEnd, before) >= minGap then [silences[i]] else [])
  {
    assert silences[..i + 1] == silences[..i] + [silences[i]];
    FilterFromAppend(lastEnd, silences[..i], [silences[i]], minGap);
    var l := LastEndOr(lastEnd, FilterFrom(lastEnd, silences[..i], minGap));
    assert FilterFrom(l, [silences[i]], minGap)
      == if silences[i].start - l >= minGap then [silences[i]] else [] by {
      assert [silences[i]][1..] == [];
    }
  }

  /** `filter_slice_points` as written: the early return on an empty list, then the
      loop over the silences with `last_end` starting at 0. */
  method FilterLoop(silences: seq<Span>, minGap: real) returns (filtered: seq<Span>)
    ensures filtered == FilterSlicePoints(silences, minGap)
  {
    if |silences| == 0 {
      return [];
    }
    filtered := [];
    var lastEnd := 0.0;
    var i := 0;
    while i < |silences|
      invariant 0 <= i <= |silences|
      invariant filtered == FilterFrom(0.0, silences[..i], minGap)
      invariant lastEnd == LastEndOr(0.0, filtered)
    {
      FilterStep(0.0, silences, minGap, i);
      if silences[i].start - lastEnd >= minGap {
        filtered := filtered + [silences[i]];
        lastEnd := silences[i].end;
      }
      i := i + 1;
    }
    assert silences[..i] == silences;
  }

  /** The filter leaves a list alone exactly when the list is already spaced. */
  lemma {:induction false} FilterFixed(lastEnd: real, s: seq<Span>, minGap: real)
    ensures FilterFrom(lastEnd, s, minGap) == s <==> GapSpaced(lastEnd, s, minGap)
    decreases |s|
  {
    if |s| > 0 && GapSpaced(lastEnd, s, minGap) {
      assert GapSpaced(s[0].end, s[1..], minGap) by {
        forall i | 0 < i < |s[1..]| ensures s[1..][i].start - s[1..][i - 1].end >= minGap {
          assert s[1..][i] == s[i + 1] && s[1..][i - 1] == s[i];
        }
        if |s| > 1 {
          assert s[1..][0] == s[1];
        }
      }
      FilterFixed(s[0].end, s[1..], minGap);
      assert s == [s[0]] + s[1..];
    }
  }

  /** Filtering twice with the same gap is filtering once. */
  lemma FilterIdempotent(silences: seq<Span>, minGap: real)
    ensures FilterSlicePoints(FilterSlicePoints(silences, minGap), minGap) == FilterSlicePoints(silences, minGap)
  {
    var once := FilterSlicePoints(silences, minGap);
    if |once| > 0 {
      FilterFixed(0.0, once, minGap);
    }
  }

  /** Lines 173-175: a reversed silence is swapped into order. */
  function Normalize(s: Span): (r: Span)
    ensures r.start <= r.end
    ensures (r.start == s.start && r.end == s.end) || (r.start == s.end && r.end == s.start)
  {
    if s.start > s.end then Span(s.end, s.start) else s
  }

  /** The silence starts, after swapping, that can end a clip, and the silence ends
      that can start one. */
  function SilenceStarts(silences: seq<Span>): set<real>
  {
    set k | 0 <= k < |silences| :: Normalize(silences[k]).start
  }

  function SilenceEnds(silences: seq<Span>): set<real>
  {
    set k | 0 <= k < |silences| :: Normalize(silences[k]).end
  }

  lemma SilenceSetsTail(silences: seq<Span>)
    requires |silences| > 0
    ensures SilenceStarts(silences) == {Normalize(silences[0]).start} + SilenceStarts(silences[1..])
    ensures SilenceEnds(silences) == {Normalize(silences[0]).end} + SilenceEnds(silences[1..])
  {
    var t := silences[1..];
    forall x | x in SilenceStarts(silences) ensures x in {Normalize(silences[0]).start} + SilenceStarts(t) {
      var k :| 0 <= k < |silences| && Normalize(silences[k]).start == x;
      if k > 0 { assert t[k - 1] == silences[k]; }
    }
    forall x | x in SilenceEnds(silences) ensures x in {Normalize(silences[0]).end} + SilenceEnds(t) {
      var k :| 0 <= k < |silences| && Normalize(silences[k]).end == x;
      if k > 0 { assert t[k - 1] == silences[k]; }
    }
    forall x | x in SilenceStarts(t) ensures x in SilenceStarts(silences) {
      var k :| 0 <= k < |t| && Normalize(t[k]).start == x;
      assert silences[k + 1] == t[k];
    }
    forall x | x in SilenceEnds(t) ensures x in SilenceEnds(silences) {
      var k :| 0 <= k < |t| && Normalize(t[k]).end == x;
      assert silences[k + 1] == t[k];
    }
  }

  /** Lines 171-187 from a position `current`: a clip before each silence that starts
      after the position, then the position jumps to the silence's end; finally a
      clip to the end of the video if any of it is left. */
  function GapsFrom(current: real, silences: seq<Span>, duration: real): (r: seq<Span>)
    ensures forall i :: 0 <= i < |r| ==> r[i].start < r[i].end
    decreases |silences|
  {
    if |silences| == 0 then
      if current < duration then [Span(current, duration)] else []
    else
      var n := Normalize(silences[0]);
      (if n.start > current then [Span(current, n.start)] else []) + GapsFrom(n.end, silences[1..], duration)
  }

  /** Lines 167-187: the clips of the old revision. Without silences a non-empty
      video is one clip. */
  function GapSegments(silences: seq<Span>, duration: real): (r: seq<Span>)
    ensures forall i :: 0 <= i < |r| ==> r[i].start < r[i].end
    ensures |silences| == 0 ==> (r == [Span(0.0, duration)] <==> duration > 0.0) && (r == [] <==> duration <= 0.0)
  {
    GapsFrom(0.0, silences, duration)
  }

  /** Every clip starts at `first` or at a silence's end, and ends at a silence's
      start or at `last`. */
  predicate BoundedBy(r: seq<Span>, first: real, last: real, silences: seq<Span>)
  {
    forall i :: 0 <= i < |r| ==>
      && (r[i].start == first || r[i].start in SilenceEnds(silences))
      && (r[i].end == last || r[i].end in SilenceStarts(silences))
  }

  /** The clips from a position start there or at a silence's end, and end at a
      silence's start or at the end of the video. */
  lemma {:induction false} GapsFromBoundaries(current: real, silences: seq<Span>, duration: real)
    ensures BoundedBy(GapsFrom(current, silences, duration), current, duration, silences)
    decreases |silences|
  {
    var r := GapsFrom(current, silences, duration);
    if |silences| > 0 {
      var n := Normalize(silences[0]);
      var head := if n.start > current then [Span(current, n.start)] else [];
      var rest := GapsFrom(n.end, silences[1..], duration);
      assert r == head + rest;
      GapsFromBoundaries(n.end, silences[1..], duration);
      SilenceSetsTail(silences);
      forall i | 0 <= i < |r|
        ensures && (r[i].start == current || r[i].start in SilenceEnds(silences))
                && (r[i].end == duration || r[i].end in SilenceStarts(silences))
      {
        if i < |head| {
          assert r[i] == Span(current, n.start);
        } else {
          assert r[i] == rest[i - |head|];
        }
      }
    }
  }

  /** Lines 171-187: each clip starts at 0 or at a silence's end and ends at a
      silence's start or at the end of the video. */
  lemma GapSegmentsBoundaries(silences: seq<Span>, duration: real)
    ensures BoundedBy(GapSegments(silences, duration), 0.0, duration, silences)
  {
    GapsFromBoundaries(0.0, silences, duration);
  }

  /** Silences in order, each ending no later than the next begins. */
  predicate Chained(silences: seq<Span>)
  {
    && (forall k :: 0 <= k < |silences| ==> silences[k].start <= silences[k].end)
    && (forall k :: 0 < k < |silences| ==> silences[k - 1].end <= silences[k].start)
  }

  /** Clips in order, each ending no later than the next begins. */
  predicate Ordered(r: seq<Span>)
  {
    forall i :: 0 < i < |r| ==> r[i - 1].end <= r[i].start
  }

  /** A clip and a silence share no instant beyond a common endpoint. */
  predicate Apart(a: Span, b: Span)
  {
    a.end <= b.start || b.end <= a.start
  }

  /** The silences after the first of a chained list are chained. */
  lemma ChainedTail(silences: seq<Span>)
    requires Chained(silences) && |silences| > 0
    ensures Chained(silences[1..])
    ensures |silences| > 1 ==> silences[1..][0] == silences[1]
  {
    var t := silences[1..];
    forall k | 0 < k < |t| ensures t[k - 1].end <= t[k].start {
      assert t[k - 1] == silences[k] && t[k] == silences[k + 1];
    }
  }

  /** Every clip starts at or after `t`. */
  predicate StartAtLeast(r: seq<Span>, t: real)
  {
    forall i :: 0 <= i < |r| ==> t <= r[i].start
  }

  /** No clip overlaps any silence. */
  predicate ClearOf(r: seq<Span>, silences: seq<Span>)
  {
    forall i, k :: 0 <= i < |r| && 0 <= k < |silences| ==> Apart(r[i], silences[k])
  }

  /** From a position no later than the first of chained silences, every clip starts
      at or after the position. */
  lemma {:induction false} GapsFromAfter(current: real, silences: seq<Span>, duration: real)
    requires Chained(silences)
    requires |silences| > 0 ==> current <= silences[0].start
    ensures StartAtLeast(GapsFrom(current, silences, duration), current)
    decreases |silences|
  {
    if |silences| > 0 {
      var s0 := silences[0];
      ChainedTail(silences);
      GapsFromAfter(s0.end, silences[1..], duration);
      var rest := GapsFrom(s0.end, silences[1..], duration);
      var head := if s0.start > current then [Span(current, s0.start)] else [];
      var r := GapsFrom(current, silences, duration);
      assert r == head + rest;
      forall i | 0 <= i < |r| ensures current <= r[i].start {
        if i >= |head| {
          assert r[i] == rest[i - |head|];
        }
      }
    }
  }

  /** From a position no later than the first of chained silences, the clips come in
      order. */
  lemma {:induction false} GapsFromOrdered(current: real, silences: seq<Span>, duration: real)
    requires Chained(silences)
    requires |silences| > 0 ==> current <= silences[0].start
    ensures Ordered(GapsFrom(current, silences, duration))
    decreases |silences|
  {
    if |silences| > 0 {
      var s0 := silences[0];
      ChainedTail(silences);
      GapsFromOrdered(s0.end, silences[1..], duration);
      var rest := GapsFrom(s0.end, silences[1..], duration);
      if s0.start > current {
        GapsFromAfter(s0.end, silences[1..], duration);
        OrderedCons(Span(current, s0.start), rest);
      }
    }
  }

  /** A clip that ends before the first of ordered clips begins keeps them ordered. */
  lemma OrderedCons(a: Span, rest: seq<Span>)
    requires Ordered(rest)
    requires |rest| > 0 ==> a.end <= rest[0].start
    ensures Ordered([a] + rest)
  {
    var r := [a] + rest;
    forall i | 0 < i < |r| ensures r[i - 1].end <= r[i].start {
      if i > 1 {
        assert r[i - 1] == rest[i - 2] && r[i] == rest[i - 1];
      }
    }
  }

  /** From a position no later than the first of chained silences, no clip overlaps
      a silence. */
  lemma {:induction false} GapsFromApart(current: real, silences: seq<Span>, duration: real)
    requires Chained(silences)
    requires |silences| > 0 ==> current <= silences[0].start
    ensures ClearOf(GapsFrom(current, silences, duration), silences)
    decreases |silences|
  {
    if |silences| > 0 {
      var s0 := silences[0];
      var t := silences[1..];
      ChainedTail(silences);
      GapsFromApart(s0.end, t, duration);
      GapsFromAfter(s0.end, t, duration);
      ChainedAfter(silences);
      var rest := GapsFrom(s0.end, t, duration);
      var head := if s0.start > current then [Span(current, s0.start)] else [];
      var r := GapsFrom(current, silences, duration);
      assert r == head + rest;
      forall i, k | 0 <= i < |r| && 0 <= k < |silences| ensures Apart(r[i], silences[k]) {
        if i < |head| {
          assert r[i] == Span(current, s0.start);
          assert s0.start <= silences[k].start;
        } else {
          assert r[i] == rest[i - |head|];
          if k > 0 {
            assert silences[k] == t[k - 1];
          } else {
            assert s0.end <= r[i].start;
          }
        }
      }
    }
  }

  /** In chained silences every silence begins after the first ends, and a position
      at the first silence's start is no later than any silence. */
  lemma ChainedAfter(silences: seq<Span>)
    requires Chained(silences)
    requires |silences| > 0
    ensures forall k :: 0 <= k < |silences| ==> silences[0].start <= silences[k].start
    ensures forall k :: 0 < k < |silences| ==> silences[0].end <= silences[k].start
  {
    var k := 1;
    while k < |silences|
      invariant 1 <= k <= |silences|
      invariant forall m :: 0 < m < k ==> silences[0].end <= silences[m].start
    {
      if k > 1 {
        assert silences[k - 1].start <= silences[k - 1].end;
      }
      k := k + 1;
    }
  }

  /** Lines 167-187: for silences in order, the clips come in order and none overlaps
      a silence. */
  lemma GapSegmentsOrdered(silences: seq<Span>, duration: real)
    requires Chained(silences)
    ensures Ordered(GapSegments(silences, duration))
    ensures ClearOf(GapSegments(silences, duration), silences)
  {
    if |silences| > 0 && silences[0].start < 0.0 {
      BeforeZero(silences, duration);
    } else {
      GapsFromOrdered(0.0, silences, duration);
      GapsFromApart(0.0, silences, duration);
    }
  }

  /** A first silence that starts before 0 emits no clip: the clips are those from its
      end on. */
  lemma BeforeZero(silences: seq<Span>, duration: real)
    requires Chained(silences)
    requires |silences| > 0 && silences[0].start < 0.0
    ensures Ordered(GapSegments(silences, duration))
    ensures ClearOf(GapSegments(silences, duration), silences)
  {
    var s0 := silences[0];
    var t := silences[1..];
    ChainedTail(silences);
    var r := GapSegments(silences, duration);
    assert r == GapsFrom(s0.end, t, duration);
    GapsFromOrdered(s0.end, t, duration);
    GapsFromApart(s0.end, t, duration);
    GapsFromAfter(s0.end, t, duration);
    forall i, k | 0 <= i < |r| && 0 <= k < |silences| ensures Apart(r[i], silences[k]) {
      if k > 0 {
        assert silences[k] == t[k - 1];
      } else {
        assert s0.end <= r[i].start;
      }
    }
  }

  /** `t` lies in one of the clips or in one of the (swapped) silences. */
  predicate Covered(r: seq<Span>, silences: seq<Span>, t: real)
  {
    || (exists i :: 0 <= i < |r| && r[i].start <= t <= r[i].end)
    || (exists k :: 0 <= k < |silences| && Normalize(silences[k]).start <= t <= Normalize(silences[k]).end)
  }

  /** Every instant after the position and up to the end of the video lies in a clip
      or in a (swapped) silence. */
  lemma {:induction false} GapsFromCover(current: real, silences: seq<Span>, duration: real, t: real)
    requires current < t <= duration
    ensures Covered(GapsFrom(current, silences, duration), silences, t)
    decreases |silences|
  {
    var r := GapsFrom(current, silences, duration);
    if |silences| == 0 {
      assert r[0] == Span(current, duration);
    } else {
      var n := Normalize(silences[0]);
      var head := if n.start > current then [Span(current, n.start)] else [];
      var rest := GapsFrom(n.end, silences[1..], duration);
      assert r == head + rest;
      if t <= n.start {
        assert head == [Span(current, n.start)];
        assert r[0] == Span(current, n.start) && r[0].start <= t <= r[0].end;
      } else if t <= n.end {
        assert Normalize(silences[0]).start <= t <= Normalize(silences[0]).end;
      } else {
        GapsFromCover(n.end, silences[1..], duration, t);
        if exists i :: 0 <= i < |rest| && rest[i].start <= t <= rest[i].end {
          var i :| 0 <= i < |rest| && rest[i].start <= t <= rest[i].end;
          assert r[i + |head|] == rest[i];
        } else {
          var k :| 0 <= k < |silences[1..]| && Normalize(silences[1..][k]).start <= t <= Normalize(silences[1..][k]).end;
          assert silences[k + 1] == silences[1..][k];
        }
      }
    }
  }

  /** Lines 167-187: every instant of a non-empty video lies in a clip or in a
      silence, wherever the silences lie; nothing is lost between them. */
  lemma GapSegmentsCover(silences: seq<Span>, duration: real, t: real)
    requires 0.0 <= t <= duration && 0.0 < duration
    ensures Covered(GapSegments(silences, duration), silences, t)
  {
    var r := GapSegments(silences, duration);
    if t > 0.0 {
      GapsFromCover(0.0, silences, duration, t);
    } else if |silences| == 0 {
      assert r[0] == Span(0.0, duration);
    } else {
      var n := Normalize(silences[0]);
      if n.start > 0.0 {
        assert r[0] == Span(0.0, n.start);
      } else if n.end >= 0.0 {
        assert Normalize(silences[0]).start <= t <= Normalize(silences[0]).end;
      } else {
        // The whole first silence lies before 0: the clips resume from its end.
        var rest := GapsFrom(n.end, silences[1..], duration);
        assert r == rest;
        GapsFromCover(n.end, silences[1..], duration, t);
        if !exists i :: 0 <= i < |rest| && rest[i].start <= t <= rest[i].end {
          var k :| 0 <= k < |silences[1..]| && Normalize(silences[1..][k]).start <= t <= Normalize(silences[1..][k]).end;
          assert silences[k + 1] == silences[1..][k];
        }
      }
    }
  }

  /** The old project's timing content. `blackLength` is the length property of the
      black producer, 17 ms past the video; `profileFrameRate` is the profile's
      truncated frame rate. */
  datatype OldProject = OldProject(
    profileFrameRate: int, length: real, blackLength: real, background: Entry,
    chains: seq<Chain>, entries: seq<Entry>)

  /** `int(x)`: truncation toward zero. */
  function Truncate(x: real): (r: int)
    ensures x >= 0.0 ==> r as real <= x < r as real + 1.0
    ensures x < 0.0 ==> r as real - 1.0 < x <= r as real
  {
    if x >= 0.0 then x.Floor else -((-x).Floor)
  }

  /** Lines 225-234: entry `i` plays chain `i` up to its clip's end; the first enters at
      its clip's start, every later one one frame after the previous clip's end. */
  function OldEntries(segments: seq<Span>, frameTime: real): (r: seq<Entry>)
    ensures |r| == |segments|
    ensures forall i :: 0 <= i < |r| ==> r[i].producer == ChainId(i) && r[i].outPoint == segments[i].end
    ensures |r| > 0 ==> r[0].inPoint == segments[0].start
    ensures forall i :: 0 < i < |r| ==> r[i].inPoint == r[i - 1].outPoint + frameTime
  {
    seq(|segments|, i requires 0 <= i < |segments| =>
      Entry(ChainId(i), if i > 0 then segments[i - 1].end + frameTime else segments[i].start, segments[i].end))
  }

  /** An entry after the first is reversed exactly when its clip ends less than a
      frame after the previous clip's end; nothing clamps it. */
  lemma OldEntryReversed(segments: seq<Span>, frameTime: real, i: nat)
    requires 0 < i < |segments|
    ensures var r := OldEntries(segments, frameTime);
      r[i].inPoint > r[i].outPoint <==> segments[i].end - segments[i - 1].end < frameTime
  {
  }

  /** Two clips of 1 s and 10 ms at 30 frames per second: the second entry goes in
      after it goes out. */
  lemma OldEntryReversedExample()
    ensures var r := OldEntries([Span(0.0, 1.0), Span(1.0, 1.01)], 1.0 / 30.0);
      r[1].inPoint > r[1].outPoint
  {
    var segs := [Span(0.0, 1.0), Span(1.0, 1.01)];
    OldEntryReversed(segs, 1.0 / 30.0, 1);
  }

  /** Lines 109-234: the old project. Computing the frame time `1.0 / frame_rate` fails
      when the frame rate is 0, whatever the silences. */
  function BuildOldProject(silences: seq<Span>, duration: real, frameRate: real, resource: string, hash: string): (r: Result<OldProject>)
    ensures r.Err? <==> frameRate == 0.0
    ensures r.Ok? ==>
      && r.value.profileFrameRate == Truncate(frameRate)
      && r.value.length == duration
      && r.value.blackLength == duration + 0.017
      && r.value.background == Entry("black", 0.0, duration)
      && |r.value.chains| == |GapSegments(silences, duration)|
      && Wired(r.value.chains, r.value.entries)
      && (forall i :: 0 <= i < |r.value.chains| ==> r.value.chains[i].resource == resource && r.value.chains[i].hash == hash)
      && r.value.entries == OldEntries(GapSegments(silences, duration), 1.0 / frameRate)
  {
    if frameRate == 0.0 then Err(ZeroDivision)
    else
      var segments := GapSegments(silences, duration);
      Ok(OldProject(Truncate(frameRate), duration, duration + 0.017, Entry("black", 0.0, duration),
                    Chains(|segments|, duration, resource, hash),
                    OldEntries(segments, 1.0 / frameRate)))
  }
}

=== FILE: pairing.dfy ===
/** The current revision's pairing of silence starts ("offsets", from the
    quieter detector pass) with silence ends ("onsets", from the louder pass)
    into silence intervals: a greedy walk with one cursor per list. Line
    numbers in the comments below refer to `smart_silence_slicer.py`. */
module Pairing {
  import opened Spans

  /** How many leading times of `xs` are at or before `t`: the number of steps
      one inner `while … <= …: next(…)` loop takes. */
  function SkipCount(xs: seq<real>, t: real): (k: nat)
    ensures k <= |xs|
    ensures forall i :: 0 <= i < k ==> xs[i] <= t
    ensures k < |xs| ==> xs[k] > t
  {
    if |xs| == 0 || xs[0] > t then 0 else 1 + SkipCount(xs[1..], t)
  }

  /** The silence intervals the loop emits. Each pairs the current offset with the
      first remaining onset after it; the onset cursor then stays put while the
      offset cursor moves past that onset. */
  function Pair(offsets: seq<real>, onsets: seq<real>): seq<Span>
    decreases |offsets| + |onsets|
  {
    if |offsets| == 0 || |onsets| == 0 then []
    else
      var j := SkipCount(onsets, offsets[0]);
      if j == |onsets| then []
      else
        var i := SkipCount(offsets, onsets[j]);
        [Span(offsets[0], onsets[j])] + Pair(offsets[i..], onsets[j..])
  }

  /** Every pair is a proper interval, each starts after the previous one ends, the
      first starts at the first offset, and there are none exactly when there is no
      offset or no onset lies after the first offset. */
  lemma {:induction false} PairShape(offsets: seq<real>, onsets: seq<real>)
    ensures var r := Pair(offsets, onsets);
      && (forall i :: 0 <= i < |r| ==> r[i].start < r[i].end)
      && (forall i :: 0 < i < |r| ==> r[i - 1].end < r[i].start)
      && (|r| > 0 ==> |offsets| > 0 && r[0].start == offsets[0])
      && (r == [] <==> |offsets| == 0 || forall k :: 0 <= k < |onsets| ==> onsets[k] <= offsets[0])
    decreases |offsets| + |onsets|
  {
    var r := Pair(offsets, onsets);
    if |offsets| > 0 && |onsets| > 0 {
      var j := SkipCount(onsets, offsets[0]);
      if j < |onsets| {
        var i := SkipCount(offsets, onsets[j]);
        var rest := Pair(offsets[i..], onsets[j..]);
        assert r == [Span(offsets[0], onsets[j])] + rest;
        PairShape(offsets[i..], onsets[j..]);
        if |rest| > 0 {
          assert rest[0].start == offsets[i..][0] == offsets[i] > onsets[j];
        }
        forall i' | 0 < i' < |r| ensures r[i' - 1].end < r[i'].start {
          if i' > 1 {
            assert r[i' - 1] == rest[i' - 2] && r[i'] == rest[i' - 1];
          }
        }
        assert onsets[j] > offsets[0];
      } else {
        assert forall k :: 0 <= k < |onsets| ==> onsets[k] <= offsets[0];
      }
    }
  }

  /** The onsets paired after the first offset all come from past that offset. */
  lemma {:induction false} PairEndsFrom(offsets: seq<real>, onsets: seq<real>)
    requires |offsets| > 0
    ensures IsSubseq(Ends(Pair(offsets, onsets)), onsets[SkipCount(onsets, offsets[0])..])
    decreases |offsets| + |onsets|
  {
    var r := Pair(offsets, onsets);
    var j := SkipCount(onsets, offsets[0]);
    if |onsets| > 0 && j < |onsets| {
      var i := SkipCount(offsets, onsets[j]);
      var rest := Pair(offsets[i..], onsets[j..]);
      assert r == [Span(offsets[0], onsets[j])] + rest;
      assert Ends(r)[1..] == Ends(rest);
      if i < |offsets| {
        PairEndsFrom(offsets[i..], onsets[j..]);
        var j2 := SkipCount(onsets[j..], offsets[i]);
        assert j2 >= 1;
        assert onsets[j..][j2..] == onsets[j..][1..][j2 - 1..];
        SubseqOfSuffix(Ends(rest), onsets[j..][1..], j2 - 1);
      }
    }
  }

  /** Emitted offsets keep their order in the offset list and emitted onsets in the
      onset list; so there are never more pairs than offsets or onsets. */
  lemma {:induction false} PairSubsequences(offsets: seq<real>, onsets: seq<real>)
    ensures IsSubseq(Starts(Pair(offsets, onsets)), offsets)
    ensures IsSubseq(Ends(Pair(offsets, onsets)), onsets)
    ensures |Pair(offsets, onsets)| <= |offsets|
    ensures |Pair(offsets, onsets)| <= |onsets|
    decreases |offsets| + |onsets|
  {
    var r := Pair(offsets, onsets);
    if |offsets| > 0 && |onsets| > 0 {
      var j := SkipCount(onsets, offsets[0]);
      if j < |onsets| {
        var i := SkipCount(offsets, onsets[j]);
        var rest := Pair(offsets[i..], onsets[j..]);
        assert r == [Span(offsets[0], onsets[j])] + rest;
        PairSubsequences(offsets[i..], onsets[j..]);
        assert Starts(r)[1..] == Starts(rest);
        assert offsets[i..] == offsets[1..][i - 1..];
        SubseqOfSuffix(Starts(rest), offsets[1..], i - 1);
        PairEndsFrom(offsets, onsets);
        SubseqOfSuffix(Ends(r), onsets, j);
      }
    }
    SubseqLength(Starts(r), offsets);
    SubseqLength(Ends(r), onsets);
  }

  /** Every emitted time is one of the detected times. */
  lemma PairEndpoints(offsets: seq<real>, onsets: seq<real>)
    ensures forall i :: 0 <= i < |Pair(offsets, onsets)| ==>
      Pair(offsets, onsets)[i].start in offsets && Pair(offsets, onsets)[i].end in onsets
  {
    var r := Pair(offsets, onsets);
    PairSubsequences(offsets, onsets);
    SubseqMembers(Starts(r), offsets);
    SubseqMembers(Ends(r), onsets);
    forall i | 0 <= i < |r| ensures r[i].start in offsets && r[i].end in onsets {
      assert Starts(r)[i] in Starts(r);
      assert Ends(r)[i] in Ends(r);
    }
  }

  /** One round of the loop: the first pair, then pairing resumes from both cursors. */
  lemma PairStep(offsets: seq<real>, onsets: seq<real>, i: nat, j: nat)
    requires |offsets| > 0
    requires j == SkipCount(onsets, offsets[0]) && j < |onsets|
    requires i == SkipCount(offsets, onsets[j])
    ensures Pair(offsets, onsets) == [Span(offsets[0], onsets[j])] + Pair(offsets[i..], onsets[j..])
  {
  }

  /** One inner loop: advances a cursor from `from` past every time at or before `t`. */
  method SkipIndex(xs: seq<real>, from: nat, t: real) returns (k: nat)
    requires from <= |xs|
    ensures k == from + SkipCount(xs[from..], t)
  {
    k := from;
    while k < |xs| && xs[k] <= t
      invariant from <= k <= |xs|
      invariant k + SkipCount(xs[k..], t) == from + SkipCount(xs[from..], t)
    {
      assert xs[k..][1..] == xs[k + 1..];
      k := k + 1;
    }
  }

  /** One round of the loop from cursors `i0` and `j0`, in terms of the indices. */
  lemma PairFrom(offsets: seq<real>, onsets: seq<real>, i0: nat, j0: nat, i: nat, j: nat)
    requires i0 < |offsets| && j0 <= j < |onsets|
    requires j == j0 + SkipCount(onsets[j0..], offsets[i0])
    requires i == i0 + SkipCount(offsets[i0..], onsets[j])
    ensures Pair(offsets[i0..], onsets[j0..]) == [Span(offsets[i0], onsets[j])] + Pair(offsets[i..], onsets[j..])
  {
    var offs, ons := offsets[i0..], onsets[j0..];
    assert offs[0] == offsets[i0];
    assert ons[j - j0] == onsets[j];
    assert ons[j - j0..] == onsets[j..];
    assert offs[i - i0..] == offsets[i..];
    PairStep(offs, ons, i - i0, j - j0);
  }

  /** The outer loop's invariant survives one emitted pair. */
  lemma Resume(offsets: seq<real>, onsets: seq<real>, done: seq<Span>, i0: nat, j0: nat, i: nat, j: nat)
    requires i0 < |offsets| && j0 <= j < |onsets|
    requires j == j0 + SkipCount(onsets[j0..], offsets[i0])
    requires i == i0 + SkipCount(offsets[i0..], onsets[j])
    requires done + Pair(offsets[i0..], onsets[j0..]) == Pair(offsets, onsets)
    ensures (done + [Span(offsets[i0], onsets[j])]) + Pair(offsets[i..], onsets[j..]) == Pair(offsets, onsets)
  {
    PairFrom(offsets, onsets, i0, j0, i, j);
    var p, rest := [Span(offsets[i0], onsets[j])], Pair(offsets[i..], onsets[j..]);
    assert (done + p) + rest == done + (p + rest);
  }

  /** The outer loop's invariant at a break: no onset is left after the current offset. */
  lemma Exhausted(offsets: seq<real>, onsets: seq<real>, done: seq<Span>, i: nat, j0: nat)
    requires i < |offsets| && j0 <= |onsets|
    requires j0 + SkipCount(onsets[j0..], offsets[i]) == |onsets|
    requires done + Pair(offsets[i..], onsets[j0..]) == Pair(offsets, onsets)
    ensures done == Pair(offsets, onsets)
  {
    assert Pair(offsets[i..], onsets[j0..]) == [];
    assert done + [] == done;
  }

  /** The loop of `detect_silences` over the two lists, with an index for each iterator. */
  method PairLoop(offsets: seq<real>, onsets: seq<real>) returns (silences: seq<Span>)
    ensures silences == Pair(offsets, onsets)
  {
    silences := [];
    var i, j := 0, 0;
    while i < |offsets| && j < |onsets|
      invariant 0 <= i <= |offsets| && 0 <= j <= |onsets|
      invariant silences + Pair(offsets[i..], onsets[j..]) == Pair(offsets, onsets)
      decreases |offsets| - i + |onsets| - j
    {
      ghost var i0, j0 := i, j;
      j := SkipIndex(onsets, j, offsets[i]);
      if j == |onsets| {
        Exhausted(offsets, onsets, silences, i, j0);
        return;
      }
      ghost var before := silences;
      silences := silences + [Span(offsets[i], onsets[j])];
      i := SkipIndex(offsets, i, onsets[j]);
      Resume(offsets, onsets, before, i0, j0, i, j);
    }
    assert Pair(offsets[i..], onsets[j..]) == [];
    assert silences + [] == silences;
  }
}

=== FILE: pipeline.dfy ===
/** Both revisions end to end, from the detector's times to the project's
    timeline: `detect_silences` then `create_mlt_file`, with the detector's
    output and the video's metadata as inputs. */
module Pipeline {
  import opened Spans
  import opened Mlt
  import opened Pairing
  import opened Segments
  import opened Playlist
  import opened OldSlicer

  /** The current revision: pair the two detector passes, cut the video at the
      silences, and build the project. */
  function Slice(offsets: seq<real>, onsets: seq<real>, info: VideoInfo, minLength: real,
                 resource: string, hash: string): (r: Result<Project>)
    ensures r.Err? <==> info.frameRateNum == 0
  {
    BuildProject(info, BuildSegments(info.duration, Pair(offsets, onsets), minLength), resource, hash)
  }

  /** A playlist that starts at 0 and ends at `duration`, keeps every entry inside the
      video and in order, and leaves at most one frame out between consecutive entries. */
  predicate Timeline(e: seq<Entry>, duration: real, frame: real)
  {
    && |e| >= 1
    && e[0].inPoint == 0.0
    && e[|e| - 1].outPoint == duration
    && (forall i :: 0 <= i < |e| ==> 0.0 <= e[i].inPoint <= e[i].outPoint <= duration)
    && (forall i :: 0 <= i < |e| - 1 ==> e[i].outPoint <= e[i + 1].inPoint <= e[i].outPoint + frame)
  }

  /** Detected times inside a non-empty video give a playlist that starts at 0, ends at
      the end of the video, keeps every entry inside the video in order, and leaves at
      most one frame out between consecutive entries. */
  lemma SliceTimeline(offsets: seq<real>, onsets: seq<real>, info: VideoInfo, minLength: real,
                      resource: string, hash: string)
    requires info.duration > 0.0 && info.frameRateNum > 0 && info.frameRateDen > 0
    requires forall k :: 0 <= k < |offsets| ==> 0.0 <= offsets[k] <= info.duration
    requires forall k :: 0 <= k < |onsets| ==> 0.0 <= onsets[k] <= info.duration
    ensures Slice(offsets, onsets, info, minLength, resource, hash).Ok?
    ensures Timeline(Slice(offsets, onsets, info, minLength, resource, hash).value.entries,
                     info.duration, info.frameRateDen as real / info.frameRateNum as real)
  {
    var silences := Pair(offsets, onsets);
    PairWithin(offsets, onsets, info.duration);
    var frame := info.frameRateDen as real / info.frameRateNum as real;
    SegmentsTimeline(info.duration, silences, minLength, frame);
  }

  /** Detected times inside the video pair into silences inside it. */
  lemma PairWithin(offsets: seq<real>, onsets: seq<real>, duration: real)
    requires forall k :: 0 <= k < |offsets| ==> 0.0 <= offsets[k] <= duration
    requires forall k :: 0 <= k < |onsets| ==> 0.0 <= onsets[k] <= duration
    ensures WithinVideo(duration, Pair(offsets, onsets))
  {
    PairEndpoints(offsets, onsets);
  }

  /** The entries over the segments of a non-empty video form its timeline. */
  lemma SegmentsTimeline(duration: real, silences: seq<Span>, minLength: real, frame: real)
    requires duration > 0.0 && frame > 0.0
    requires WithinVideo(duration, silences)
    ensures Timeline(Entries(BuildSegments(duration, silences, minLength), frame), duration, frame)
  {
    BuildSegmentsPartition(duration, silences, minLength);
    EntriesTimeline(BuildSegments(duration, silences, minLength), frame, duration);
  }

  /** The entries over a partition of a video run from 0 to its end, in order, with at
      most one frame left out at each cut. */
  lemma EntriesTimeline(segments: seq<Span>, frame: real, duration: real)
    requires frame > 0.0
    requires |segments| >= 1 && Contiguous(segments)
    requires segments[0].start == 0.0 && segments[|segments| - 1].end == duration
    requires forall i :: 0 <= i < |segments| ==> segments[i].start < segments[i].end
    ensures Timeline(Entries(segments, frame), duration, frame)
  {
    var e := Entries(segments, frame);
    InVideo(segments, duration);
    forall i | 0 <= i < |e| - 1 ensures e[i].outPoint <= e[i + 1].inPoint <= e[i].outPoint + frame {
      EntriesAbut(segments, frame, i);
    }
  }

  /** Contiguous non-empty segments from 0 to the end of the video lie inside it. */
  lemma InVideo(segments: seq<Span>, duration: real)
    requires |segments| >= 1 && Contiguous(segments)
    requires segments[0].start == 0.0 && segments[|segments| - 1].end == duration
    requires forall i :: 0 <= i < |segments| ==> segments[i].start < segments[i].end
    ensures forall i :: 0 <= i < |segments| ==> 0.0 <= segments[i].start && segments[i].end <= duration
  {
    var n := |segments|;
    var k := 1;
    while k < n
      invariant 1 <= k <= n
      invariant forall i :: 0 <= i < k ==> 0.0 <= segments[i].start < segments[i].end
    {
      assert segments[k - 1].end == segments[k].start;
      k := k + 1;
    }
    k := n - 1;
    while k > 0
      invariant 0 <= k < n
      invariant forall i :: k <= i < n ==> segments[i].end <= duration
    {
      assert segments[k - 1].end == segments[k].start;
      k := k - 1;
    }
  }

  /** The old revision: zip the detector's starts and ends, thin them with the
      min-gap filter, and build the project from the gaps between them. */
  function OldSlice(starts: seq<real>, ends: seq<real>, duration: real, frameRate: real, minGap: real,
                    resource: string, hash: string): (r: Result<OldProject>)
    ensures r.Err? <==> frameRate == 0.0
  {
    BuildOldProject(FilterSlicePoints(Zip(starts, ends), minGap), duration, frameRate, resource, hash)
  }

  /** When each detected start precedes its end and the gap is not negative, the
      filtered silences are chained, so the old clips come in order, clear of every
      kept silence, and each entry after the first goes in exactly one frame after the
      previous one goes out. */
  lemma OldSliceTimeline(starts: seq<real>, ends: seq<real>, duration: real, frameRate: real, minGap: real,
                         resource: string, hash: string)
    requires frameRate != 0.0 && minGap >= 0.0
    requires forall k :: 0 <= k < |starts| && k < |ends| ==> starts[k] <= ends[k]
    ensures var kept := FilterSlicePoints(Zip(starts, ends), minGap);
      && Chained(kept)
      && Ordered(GapSegments(kept, duration))
      && ClearOf(GapSegments(kept, duration), kept)
      && var e := OldSlice(starts, ends, duration, frameRate, minGap, resource, hash).value.entries;
      && (forall i :: 0 < i < |e| ==> e[i].inPoint - e[i - 1].outPoint == 1.0 / frameRate)
  {
    var zipped := Zip(starts, ends);
    var kept := FilterSlicePoints(zipped, minGap);
    SubseqMembers(kept, zipped);
    forall k | 0 <= k < |kept| ensures kept[k].start <= kept[k].end {
      assert kept[k] in zipped;
    }
    assert Chained(kept);
    GapSegmentsOrdered(kept, duration);
  }

  /** Two silences, 1-2 s and 5-6 s, in a 10 s video: the silences stay in the
      timeline as segments of their own. */
  lemma KeepsSilences(offsets: seq<real>, onsets: seq<real>, duration: real, minLength: real)
    requires offsets == [1.0, 5.0] && onsets == [2.0, 6.0] && duration == 10.0 && minLength == 0.1
    ensures BuildSegments(duration, Pair(offsets, onsets), minLength)
      == [Span(0.0, 1.0), Span(1.0, 2.0), Span(2.0, 5.0), Span(5.0, 6.0), Span(6.0, 10.0)]
  {
    PairTwo(offsets, onsets);
    var silences := Pair(offsets, onsets);
    var sorted := [0.0, 1.0, 2.0, 5.0, 6.0, duration];
    SortedCutsTwo(duration, silences);
    SpacedTwo(sorted, duration, minLength);
    CutsOfSpaced(duration, silences, minLength, sorted);
    SegmentsSix(sorted);
  }

  lemma PairTwo(offsets: seq<real>, onsets: seq<real>)
    requires offsets == [1.0, 5.0] && onsets == [2.0, 6.0]
    ensures Pair(offsets, onsets) == [Span(1.0, 2.0), Span(5.0, 6.0)]
  {
    assert SkipCount(onsets, offsets[0]) == 0;
    assert SkipCount(offsets, onsets[0]) == 1;
    assert SkipCount(onsets, offsets[1..][0]) == 1;
    assert SkipCount(offsets[1..], onsets[1]) == 1;
    assert Pair(offsets, onsets) == [Span(1.0, 2.0)] + Pair(offsets[1..], onsets);
    assert Pair(offsets[1..], onsets) == [Span(5.0, 6.0)] + Pair(offsets[1..][1..], onsets[1..]);
  }

  lemma SpacedTwo(sorted: seq<real>, duration: real, minLength: real)
    requires duration == 10.0 && minLength == 0.1
    requires sorted == [0.0, 1.0, 2.0, 5.0, 6.0, duration]
    ensures SpacedBy(sorted, minLength)
  {
  }

  /** Six increasing points give the five spans between them. */
  lemma SegmentsSix(p: seq<real>)
    requires |p| == 6 && Increasing(p)
    ensures ToSegments(p) == [Span(p[0], p[1]), Span(p[1], p[2]), Span(p[2], p[3]), Span(p[3], p[4]), Span(p[4], p[5])]
  {
    ToSegmentsIncreasing(p);
  }

  /** Sorted cuts that are spaced far enough apart and end at the duration are the
      cut points unchanged. */
  lemma CutsOfSpaced(duration: real, silences: seq<Span>, minLength: real, sorted: seq<real>)
    requires SortedCuts(duration, silences) == sorted
    requires SpacedBy(sorted, minLength) && sorted[|sorted| - 1] == duration
    ensures Cuts(duration, silences, minLength) == sorted
  {
    KeptAllSpaced(duration, silences, minLength, sorted);
    FixTailKeeps(sorted, duration, minLength);
  }

  /** Increasing cuts that already end at the duration pass the end fix unchanged. */
  lemma FixTailKeeps(kept: seq<real>, duration: real, minLength: real)
    requires |kept| > 0 && Increasing(kept) && kept[|kept| - 1] == duration
    ensures FixTail(kept, duration, minLength) == kept
  {
    var n := |kept|;
    if n > 1 && duration - kept[n - 1] < minLength {
      assert kept[..n - 1][n - 2] != duration by {
        assert kept[n - 2] < kept[n - 1];
      }
      assert kept[..n - 1] + [duration] == kept;
    }
  }

  /** When the sorted cuts are already spaced far enough apart, the sweep keeps them all. */
  lemma KeptAllSpaced(duration: real, silences: seq<Span>, minLength: real, sorted: seq<real>)
    requires SortedCuts(duration, silences) == sorted
    requires SpacedBy(sorted, minLength)
    ensures Kept(duration, silences, minLength) == sorted
  {
    KeptOf(duration, silences, minLength, sorted);
    assert [sorted[0]] + sorted[1..] == sorted;
    KeepAll(sorted[1..], sorted[0], minLength);
  }

  /** Points spaced at least `minLength` apart are all kept. */
  lemma {:induction false} KeepAll(rest: seq<real>, last: real, minLength: real)
    requires Spaced(last, rest, minLength)
    ensures KeepSpaced(last, rest, minLength) == rest
    decreases |rest|
  {
    if |rest| > 0 {
      var all := [last] + rest;
      assert rest == [rest[0]] + rest[1..];
      assert rest[0] - last >= minLength by {
        assert all[1] == rest[0] && all[0] == last;
      }
      assert Spaced(rest[0], rest[1..], minLength) by {
        forall i | 0 < i < |rest| ensures rest[i] - rest[i - 1] >= minLength {
          assert rest[i] == all[i + 1] && rest[i - 1] == all[i];
        }
      }
      KeepAll(rest[1..], rest[0], minLength);
    }
  }

  /** A 50 ms silence 1 s into a 10 s video with a 0.5 s minimum: the silence's end is
      dropped as too close, but its start survives, so the video is cut at 1 s. */
  lemma ShortSilenceStillCuts(offsets: seq<real>, onsets: seq<real>, duration: real, minLength: real)
    requires offsets == [1.0] && onsets == [1.05] && duration == 10.0 && minLength == 0.5
    ensures BuildSegments(duration, Pair(offsets, onsets), minLength) == [Span(0.0, 1.0), Span(1.0, 10.0)]
  {
    PairOne(offsets, onsets);
    var silences := Pair(offsets, onsets);
    CutsOne(duration, silences, minLength);
    SegmentsThree([0.0, 1.0, duration]);
  }

  lemma PairOne(offsets: seq<real>, onsets: seq<real>)
    requires offsets == [1.0] && onsets == [1.05]
    ensures Pair(offsets, onsets) == [Span(1.0, 1.05)]
  {
    assert SkipCount(onsets, offsets[0]) == 0;
    assert SkipCount(offsets, onsets[0]) == 1;
    assert Pair(offsets, onsets) == [Span(1.0, 1.05)] + Pair(offsets[1..], onsets);
  }

  /** Three increasing points give the two spans between them. */
  lemma SegmentsThree(p: seq<real>)
    requires |p| == 3 && p[0] < p[1] < p[2]
    ensures ToSegments(p) == [Span(p[0], p[1]), Span(p[1], p[2])]
  {
    ToSegmentsIncreasing(p);
  }

  lemma CutsOne(duration: real, silences: seq<Span>, minLength: real)
    requires duration == 10.0 && silences == [Span(1.0, 1.05)] && minLength == 0.5
    ensures Cuts(duration, silences, minLength) == [0.0, 1.0, duration]
  {
    var kept := [0.0, 1.0, duration];
    KeptOne(duration, silences, minLength);
    assert FixTail(kept, duration, minLength) == kept[..2] + [duration];
    assert kept[..2] + [duration] == kept;
  }

  lemma KeptOne(duration: real, silences: seq<Span>, minLength: real)
    requires duration == 10.0 && silences == [Span(1.0, 1.05)] && minLength == 0.5
    ensures Kept(duration, silences, minLength) == [0.0, 1.0, duration]
  {
    SortedCutsSingle(duration, silences, [0.0, 1.0, 1.05, duration]);
    KeptDropsThird(duration, silences, minLength, [0.0, 1.0, 1.05, duration]);
  }

  /** Four sorted cuts whose third lies too close to the second, while the others are
      spaced far enough: the sweep drops exactly the third. */
  lemma KeptDropsThird(duration: real, silences: seq<Span>, minLength: real, sorted: seq<real>)
    requires SortedCuts(duration, silences) == sorted && |sorted| == 4
    requires sorted[1] - sorted[0] >= minLength && sorted[2] - sorted[1] < minLength
    requires sorted[3] - sorted[1] >= minLength
    ensures Kept(duration, silences, minLength) == [sorted[0], sorted[1], sorted[3]]
  {
    KeptOf(duration, silences, minLength, sorted);
    assert sorted[1..][1..] == sorted[2..] && sorted[2..][1..] == sorted[3..];
    assert sorted[3..][1..] == [];
    assert KeepSpaced(sorted[1], sorted[3..], minLength) == [sorted[3]];
    assert KeepSpaced(sorted[1], sorted[2..], minLength) == [sorted[3]];
    assert KeepSpaced(sorted[0], sorted[1..], minLength) == [sorted[1], sorted[3]];
  }

  lemma SortedCutsTwo(duration: real, silences: seq<Span>)
    requires duration == 10.0 && silences == [Span(1.0, 2.0), Span(5.0, 6.0)]
    ensures SortedCuts(duration, silences) == [0.0, 1.0, 2.0, 5.0, 6.0, duration]
  {
    var sorted := [0.0, 1.0, 2.0, 5.0, 6.0, duration];
    assert Endpoints(silences[1..][1..]) == {};
    assert Endpoints(silences[1..]) == {5.0, 6.0};
    assert CutSet(duration, silences) == {0.0, 1.0, 2.0, 5.0, 6.0, duration};
    assert Elems(sorted) == {0.0, 1.0, 2.0, 5.0, 6.0, duration} by {
      forall x ensures x in sorted <==> x in {0.0, 1.0, 2.0, 5.0, 6.0, duration} {
        if x in {0.0, 1.0, 2.0, 5.0, 6.0, duration} {
          assert x == sorted[0] || x == sorted[1] || x == sorted[2] || x == sorted[3] || x == sorted[4] || x == sorted[5];
        }
      }
    }
    SortedCutsOf(duration, silences, sorted);
  }

  /** A silence that ends 2 s past the end of a 10 s video: the tail fix-up pops the
      cut past the end, so the segments still run from 0 to the duration. */
  lemma EndPastVideo(duration: real, silences: seq<Span>, minLength: real)
    requires duration == 10.0 && silences == [Span(5.0, 12.0)] && minLength == 0.1
    ensures BuildSegments(duration, silences, minLength) == [Span(0.0, 5.0), Span(5.0, 10.0)]
  {
    var sorted := [0.0, 5.0, duration, 12.0];
    SortedCutsSingle(duration, silences, sorted);
    SpacedPast(sorted, duration, minLength);
    CutsPopLast(duration, silences, minLength, sorted);
    SegmentsThree([0.0, 5.0, duration]);
  }

  /** Four spaced sorted cuts whose third is the duration: the fourth, past the end,
      is popped. */
  lemma CutsPopLast(duration: real, silences: seq<Span>, minLength: real, sorted: seq<real>)
    requires SortedCuts(duration, silences) == sorted && |sorted| == 4
    requires SpacedBy(sorted, minLength)
    requires sorted[2] == duration && duration - sorted[3] < minLength
    ensures Cuts(duration, silences, minLength) == [sorted[0], sorted[1], sorted[2]]
  {
    KeptAllSpaced(duration, silences, minLength, sorted);
    FixTailPops(sorted, duration, minLength);
    assert sorted[..3] == [sorted[0], sorted[1], sorted[2]];
  }

  lemma SpacedPast(sorted: seq<real>, duration: real, minLength: real)
    requires duration == 10.0 && minLength == 0.1
    requires sorted == [0.0, 5.0, duration, 12.0]
    ensures SpacedBy(sorted, minLength)
  {
  }

  /** A negative minimum, which the command line accepts, keeps every cut and never
      pops: a silence ending 0.5 s past a 10 s video leaves the segment (10, 10.5)
      past the end of the video, from a single cut past it. */
  lemma NegativeMinimum(duration: real, silences: seq<Span>, minLength: real)
    requires duration == 10.0 && silences == [Span(5.0, 10.5)] && minLength == -1.0
    ensures BuildSegments(duration, silences, minLength)
      == [Span(0.0, 5.0), Span(5.0, 10.0), Span(10.0, 10.5)]
  {
    var sorted := [0.0, 5.0, duration, 10.5];
    SortedCutsSingle(duration, silences, sorted);
    SpacedNegative(sorted, duration, minLength);
    SegmentsPastEnd(duration, silences, minLength, sorted);
  }

  /** Four spaced sorted cuts whose third is the duration and whose fourth lies past
      it without being popped: the last segment runs from the duration past the end. */
  lemma SegmentsPastEnd(duration: real, silences: seq<Span>, minLength: real, sorted: seq<real>)
    requires SortedCuts(duration, silences) == sorted && |sorted| == 4
    requires SpacedBy(sorted, minLength) && sorted[2] == duration
    requires duration - sorted[3] >= minLength && sorted[3] != duration
    ensures BuildSegments(duration, silences, minLength)
      == [Span(sorted[0], sorted[1]), Span(sorted[1], duration), Span(duration, sorted[3])]
  {
    CutsKeepAppend(duration, silences, minLength, sorted);
    SegmentsStepBack(sorted + [duration]);
  }

  /** Spaced sorted cuts whose last is not the duration and is not popped: the
      duration is appended after it. */
  lemma CutsKeepAppend(duration: real, silences: seq<Span>, minLength: real, sorted: seq<real>)
    requires SortedCuts(duration, silences) == sorted && |sorted| > 1
    requires SpacedBy(sorted, minLength)
    requires duration - sorted[|sorted| - 1] >= minLength && sorted[|sorted| - 1] != duration
    ensures Cuts(duration, silences, minLength) == sorted + [duration]
  {
    KeptAllSpaced(duration, silences, minLength, sorted);
  }

  /** Four increasing points followed by one below the fourth: the step back gives no
      segment. */
  lemma SegmentsStepBack(p: seq<real>)
    requires |p| == 5 && p[0] < p[1] < p[2] < p[3] && p[4] < p[3]
    ensures ToSegments(p) == [Span(p[0], p[1]), Span(p[1], p[2]), Span(p[2], p[3])]
  {
    assert ToSegments(p[4..]) == [];
    assert p[3..][1..] == p[4..];
    assert ToSegments(p[3..]) == [];
    assert p[2..][1..] == p[3..];
    assert ToSegments(p[2..]) == [Span(p[2], p[3])];
    assert p[1..][1..] == p[2..];
    assert ToSegments(p[1..]) == [Span(p[1], p[2]), Span(p[2], p[3])];
  }

  lemma SpacedNegative(sorted: seq<real>, duration: real, minLength: real)
    requires duration == 10.0 && minLength == -1.0
    requires sorted == [0.0, 5.0, duration, 10.5]
    ensures SpacedBy(sorted, minLength)
  {
  }

  /** A silence from 5 s to 9.95 s in a 10 s video with a 0.1 s minimum: the sweep
      drops the duration as too close to 9.95, the tail fix-up pops 9.95 and puts the
      duration back, so the silence is merged into the last segment. */
  lemma TailSilenceMerged(duration: real, silences: seq<Span>, minLength: real)
    requires duration == 10.0 && silences == [Span(5.0, 9.95)] && minLength == 0.1
    ensures BuildSegments(duration, silences, minLength) == [Span(0.0, 5.0), Span(5.0, 10.0)]
    ensures silences[0] !in BuildSegments(duration, silences, minLength)
  {
    var sorted := [0.0, 5.0, 9.95, duration];
    SortedCutsSingle(duration, silences, sorted);
    KeptDropsFourth(duration, silences, minLength, sorted);
    CutsPopThird(duration, silences, minLength, [0.0, 5.0, 9.95]);
    SegmentsThree([0.0, 5.0, duration]);
  }

  /** Four sorted cuts whose first three are spaced far enough and whose fourth lies
      too close to the third: the sweep drops exactly the fourth. */
  lemma KeptDropsFourth(duration: real, silences: seq<Span>, minLength: real, sorted: seq<real>)
    requires SortedCuts(duration, silences) == sorted && |sorted| == 4
    requires sorted[1] - sorted[0] >= minLength && sorted[2] - sorted[1] >= minLength
    requires sorted[3] - sorted[2] < minLength
    ensures Kept(duration, silences, minLength) == [sorted[0], sorted[1], sorted[2]]
  {
    KeptOf(duration, silences, minLength, sorted);
    assert sorted[1..][1..] == sorted[2..] && sorted[2..][1..] == sorted[3..];
    assert sorted[3..][1..] == [];
    assert KeepSpaced(sorted[2], sorted[3..], minLength) == [];
    assert KeepSpaced(sorted[1], sorted[2..], minLength) == [sorted[2]];
    assert KeepSpaced(sorted[0], sorted[1..], minLength) == [sorted[1], sorted[2]];
  }

  /** A silence from 9.95 s to 10.2 s in a 10 s video: the cut at the duration is too
      close to 9.95 and the cut at 10.2 is popped, so the duration is appended after
      9.95 and the last segment is only 50 ms long, under the 0.1 s minimum. */
  lemma ShortLastSegment(duration: real, silences: seq<Span>, minLength: real)
    requires duration == 10.0 && silences == [Span(9.95, 10.2)] && minLength == 0.1
    ensures BuildSegments(duration, silences, minLength) == [Span(0.0, 9.95), Span(9.95, 10.0)]
    ensures BuildSegments(duration, silences, minLength)[1].Length() < minLength
  {
    var sorted := [0.0, 9.95, duration, 10.2];
    SortedCutsSingle(duration, silences, sorted);
    CutsDropAndPop(duration, silences, minLength, sorted);
    SegmentsThree([0.0, 9.95, duration]);
  }

  /** Four sorted cuts whose third is too close to the second and whose fourth lies
      past the end: the sweep drops the third, the fix-up pops the fourth and appends
      the duration. */
  lemma CutsDropAndPop(duration: real, silences: seq<Span>, minLength: real, sorted: seq<real>)
    requires SortedCuts(duration, silences) == sorted && |sorted| == 4
    requires sorted[1] - sorted[0] >= minLength && sorted[2] - sorted[1] < minLength
    requires sorted[3] - sorted[1] >= minLength
    requires duration - sorted[3] < minLength && sorted[1] != duration
    ensures Cuts(duration, silences, minLength) == [sorted[0], sorted[1], duration]
  {
    KeptDropsThird(duration, silences, minLength, sorted);
    CutsPopThird(duration, silences, minLength, [sorted[0], sorted[1], sorted[3]]);
  }

  /** Three kept points whose last is too close to the end: it is replaced by the duration. */
  lemma CutsPopThird(duration: real, silences: seq<Span>, minLength: real, kept: seq<real>)
    requires Kept(duration, silences, minLength) == kept && |kept| == 3
    requires duration - kept[2] < minLength && kept[1] != duration
    ensures Cuts(duration, silences, minLength) == [kept[0], kept[1], duration]
  {
    FixTailPopsAppends(kept, duration, minLength);
    assert kept[..2] == [kept[0], kept[1]];
  }

  /** A last point too close to the end is popped; when the point before it is the
      duration, nothing is appended. */
  lemma FixTailPops(kept: seq<real>, duration: real, minLength: real)
    requires |kept| > 1 && duration - kept[|kept| - 1] < minLength && kept[|kept| - 2] == duration
    ensures FixTail(kept, duration, minLength) == kept[..|kept| - 1]
  {
  }

  /** A last point too close to the end is popped; when the point before it is not
      the duration, the duration is appended in its place. */
  lemma FixTailPopsAppends(kept: seq<real>, duration: real, minLength: real)
    requires |kept| > 1 && duration - kept[|kept| - 1] < minLength && kept[|kept| - 2] != duration
    ensures FixTail(kept, duration, minLength) == kept[..|kept| - 1] + [duration]
  {
  }

  /** The sweep runs over the sorted cuts. */
  lemma KeptOf(duration: real, silences: seq<Span>, minLength: real, sorted: seq<real>)
    requires SortedCuts(duration, silences) == sorted
    ensures Kept(duration, silences, minLength) == [sorted[0]] + KeepSpaced(sorted[0], sorted[1..], minLength)
  {
  }

  /** The sorted cuts are the one increasing list of the cut set. */
  /** One silence: four increasing points holding exactly 0, the duration and the
      silence's two ends are its sorted cuts. The worked examples state their
      literals through this lemma and the small `Spaced*` lemmas, and reason about
      the cuts only through generic lemmas over abstract sequences: arithmetic on a
      literal sequence next to the definition of `SortedCuts` is expensive for the
      solver, so each literal fact is proved apart from it. */
  lemma SortedCutsSingle(duration: real, silences: seq<Span>, sorted: seq<real>)
    requires |silences| == 1 && |sorted| == 4 && sorted[0] < sorted[1] < sorted[2] < sorted[3]
    requires {0.0, duration, silences[0].start, silences[0].end} == {sorted[0], sorted[1], sorted[2], sorted[3]}
    ensures SortedCuts(duration, silences) == sorted
  {
    assert Endpoints(silences[1..]) == {};
    assert Elems(sorted) == {sorted[0], sorted[1], sorted[2], sorted[3]} by {
      forall x ensures x in sorted <==> x in {sorted[0], sorted[1], sorted[2], sorted[3]} {
        if x in sorted {
          var i :| 0 <= i < 4 && sorted[i] == x;
        }
      }
    }
    SortedCutsOf(duration, silences, sorted);
  }

  lemma SortedCutsOf(duration: real, silences: seq<Span>, sorted: seq<real>)
    requires Increasing(sorted) && Elems(sorted) == CutSet(duration, silences)
    ensures SortedCuts(duration, silences) == sorted
  {
    SortedUnique(SortedCuts(duration, silences), sorted);
  }
}

=== FILE: playlist.dfy ===
/** The current revision's project: one chain per segment and one playlist entry
    per chain, each entry trimmed one frame short of its segment's end so that
    consecutive clips do not share a frame — except the last, which runs to the end.
    Line numbers in the comments below refer to `smart_silence_slicer.py`. */
module Playlist {
  import opened Spans
  import opened Mlt

  /** What `get_video_info` reports: the duration in seconds, the frame rate as the
      integer fraction `num/den`, and the picture size. */
  datatype VideoInfo = VideoInfo(duration: real, frameRateNum: int, frameRateDen: int, width: int, height: int)

  /** The timing content of the generated document. `length` is the `out` of the
      black producer, the background entry, every chain and the tractor. */
  datatype Project = Project(
    width: int, height: int, frameRateNum: int, frameRateDen: int,
    length: real, background: Entry, chains: seq<Chain>, entries: seq<Entry>)

  function Max(a: real, b: real): (m: real)
    ensures m >= a && m >= b && (m == a || m == b)
  {
    if a >= b then a else b
  }

  /** Lines 204-207: the last entry runs to its segment's end; any other stops one
      frame before it; neither goes before the segment's start. */
  function OutPoint(seg: Span, isLast: bool, frame: real): real
  {
    var out := if isLast then seg.end else seg.end - frame;
    if out < seg.start then seg.start else out
  }

  /** Lines 203-208: the entries of the `playlist0` track. Entry `i` plays chain `i`
      from its segment's start; with a non-negative frame length it stays within its
      segment, the last entry ends exactly at its segment's end, and any other ends one
      frame early unless the segment is shorter than a frame. */
  function Entries(segments: seq<Span>, frame: real): (r: seq<Entry>)
    ensures |r| == |segments|
    ensures forall i :: 0 <= i < |r| ==> r[i].producer == ChainId(i) && r[i].inPoint == segments[i].start
    ensures forall i :: 0 <= i < |r| ==> r[i].inPoint <= r[i].outPoint
    ensures frame >= 0.0 ==> forall i :: 0 <= i < |r| && segments[i].start <= segments[i].end ==>
      r[i].outPoint <= segments[i].end
    ensures |r| > 0 && segments[|r| - 1].start <= segments[|r| - 1].end ==>
      r[|r| - 1].outPoint == segments[|r| - 1].end
    ensures forall i :: 0 <= i < |r| - 1 ==> r[i].outPoint == Max(segments[i].start, segments[i].end - frame)
  {
    seq(|segments|, i requires 0 <= i < |segments| =>
      Entry(ChainId(i), segments[i].start, OutPoint(segments[i], i == |segments| - 1, frame)))
  }

  /** Lines 147-208: the project for a video and its segments. Computing the frame
      length `den / num` fails when `num` is 0, whatever the segments. */
  function BuildProject(info: VideoInfo, segments: seq<Span>, resource: string, hash: string): (r: Result<Project>)
    ensures r.Err? <==> info.frameRateNum == 0
    ensures r.Ok? ==>
      && r.value.length == info.duration
      && r.value.background == Entry("black", 0.0, info.duration)
      && |r.value.chains| == |segments|
      && Wired(r.value.chains, r.value.entries)
      && (forall i :: 0 <= i < |segments| ==> r.value.chains[i].resource == resource && r.value.chains[i].hash == hash)
      && r.value.entries == Entries(segments, info.frameRateDen as real / info.frameRateNum as real)
  {
    if info.frameRateNum == 0 then Err(ZeroDivision)
    else
      var frame := info.frameRateDen as real / info.frameRateNum as real;
      Ok(Project(info.width, info.height, info.frameRateNum, info.frameRateDen,
                 info.duration, Entry("black", 0.0, info.duration),
                 Chains(|segments|, info.duration, resource, hash),
                 Entries(segments, frame)))
  }

  /** Over contiguous segments each entry ends at most one frame before the next one
      begins: the track skips at most one frame at each cut and never plays a frame
      twice. */
  lemma EntriesAbut(segments: seq<Span>, frame: real, i: nat)
    requires frame >= 0.0
    requires Contiguous(segments)
    requires forall k :: 0 <= k < |segments| ==> segments[k].start <= segments[k].end
    requires i + 1 < |segments|
    ensures var r := Entries(segments, frame);
      r[i].outPoint <= r[i + 1].inPoint <= r[i].outPoint + frame
  {
    var r := Entries(segments, frame);
    assert r[i + 1].inPoint == segments[i + 1].start == segments[i].end;
  }
}

=== FILE: segments.dfy ===
/** The current revision's segment builder in `create_mlt_file`: collect every
    candidate cut (0, the duration, both ends of every silence), sort them, keep
    only cuts at least the minimum segment length past the last kept one, fix up
    the tail, and cut the video between consecutive kept points. Silences are
    not removed: each silence span that survives becomes a segment of its own.
    Line numbers in the comments below refer to `smart_silence_slicer.py`. */
module Segments {
  import opened Spans

  /** Both ends of every silence. */
  function Endpoints(silences: seq<Span>): set<real>
  {
    if |silences| == 0 then {} else {silences[0].start, silences[0].end} + Endpoints(silences[1..])
  }

  lemma {:induction false} EndpointsMembers(silences: seq<Span>)
    ensures forall k :: 0 <= k < |silences| ==>
      silences[k].start in Endpoints(silences) && silences[k].end in Endpoints(silences)
    ensures forall x :: x in Endpoints(silences) ==>
      exists k :: 0 <= k < |silences| && (x == silences[k].start || x == silences[k].end)
  {
    if |silences| > 0 {
      EndpointsMembers(silences[1..]);
      forall x | x in Endpoints(silences)
        ensures exists k :: 0 <= k < |silences| && (x == silences[k].start || x == silences[k].end)
      {
        if x !in {silences[0].start, silences[0].end} {
          var k :| 0 <= k < |silences[1..]| && (x == silences[1..][k].start || x == silences[1..][k].end);
          assert silences[1..][k] == silences[k + 1];
        }
      }
      forall k | 0 < k < |silences|
        ensures silences[k].start in Endpoints(silences) && silences[k].end in Endpoints(silences)
      {
        assert silences[k] == silences[1..][k - 1];
      }
    }
  }

  /** The split-point set `{0.0, duration}` plus every silence start and end. */
  function CutSet(duration: real, silences: seq<Span>): set<real>
  {
    {0.0, duration} + Endpoints(silences)
  }

  /** Inserts `x` into strictly increasing times unless it is already there. */
  function Insert(xs: seq<real>, x: real): (r: seq<real>)
    requires Increasing(xs)
    ensures Increasing(r)
    ensures Elems(r) == Elems(xs) + {x}
  {
    if |xs| == 0 then [x]
    else if x < xs[0] then [x] + xs
    else if x == xs[0] then xs
    else
      var tail := Insert(xs[1..], x);
      assert Elems(xs) == {xs[0]} + Elems(xs[1..]);
      assert forall y :: y in tail ==> y > xs[0] by {
        forall y | y in tail ensures y > xs[0] {
          assert y in Elems(tail);
          if y != x {
            var k :| 0 <= k < |xs[1..]| && xs[1..][k] == y;
            assert xs[k + 1] == y;
          }
        }
      }
      var r := [xs[0]] + tail;
      assert Increasing(r) by {
        forall i, j | 0 <= i < j < |r| ensures r[i] < r[j] {
          assert r[j] == tail[j - 1];
          if i > 0 {
            assert r[i] == tail[i - 1];
          } else {
            assert tail[j - 1] in tail;
          }
        }
      }
      assert Elems(r) == {xs[0]} + Elems(tail);
      r
  }

  function InsertEndpoints(xs: seq<real>, silences: seq<Span>): (r: seq<real>)
    requires Increasing(xs)
    ensures Increasing(r)
    ensures Elems(r) == Elems(xs) + Endpoints(silences)
    decreases |silences|
  {
    if |silences| == 0 then xs
    else InsertEndpoints(Insert(Insert(xs, silences[0].start), silences[0].end), silences[1..])
  }

  /** `sorted(list(split_points))`: the cut set in strictly increasing order. */
  function SortedCuts(duration: real, silences: seq<Span>): (r: seq<real>)
    ensures Increasing(r)
    ensures Elems(r) == CutSet(duration, silences)
    ensures |r| > 0
  {
    assert Elems([0.0]) == {0.0} by {
      assert [0.0][0] == 0.0;
    }
    var base := Insert([0.0], duration);
    assert Elems(base) == {0.0, duration};
    var r := InsertEndpoints(base, silences);
    assert 0.0 in Elems(r);
    r
  }

  lemma ElemsEmpty(s: seq<real>)
    ensures Elems(s) == {} <==> |s| == 0
  {
    if |s| > 0 {
      assert s[0] in Elems(s);
    }
  }

  /** Two strictly increasing sequences with the same elements are equal, so the
      sorted cut list is determined by the cut set alone. */
  lemma {:induction false} SortedUnique(a: seq<real>, b: seq<real>)
    requires Increasing(a) && Increasing(b)
    requires Elems(a) == Elems(b)
    ensures a == b
    decreases |a|
  {
    ElemsEmpty(a);
    ElemsEmpty(b);
    if |a| > 0 {
      SameLeast(a, b);
      ElemsTail(a);
      ElemsTail(b);
      SortedUnique(a[1..], b[1..]);
      assert a == [a[0]] + a[1..] && b == [b[0]] + b[1..];
    }
  }

  /** Strictly increasing sequences with the same elements share their least one. */
  lemma SameLeast(a: seq<real>, b: seq<real>)
    requires Increasing(a) && Increasing(b)
    requires Elems(a) == Elems(b) && |a| > 0 && |b| > 0
    ensures a[0] == b[0]
  {
    assert a[0] in Elems(b);
    assert b[0] in Elems(a);
    var i :| 0 <= i < |b| && b[i] == a[0];
    var j :| 0 <= j < |a| && a[j] == b[0];
  }

  /** Dropping the least of strictly increasing times drops just that element. */
  lemma ElemsTail(a: seq<real>)
    requires Increasing(a) && |a| > 0
    ensures Elems(a[1..]) == Elems(a) - {a[0]}
  {
    forall y ensures y in Elems(a[1..]) <==> y in Elems(a) - {a[0]} {
      if y in a[1..] {
        var k :| 0 <= k < |a[1..]| && a[1..][k] == y;
        assert a[k + 1] == y;
      }
      if y in a && y != a[0] {
        var k :| 0 <= k < |a| && a[k] == y;
        assert a[1..][k - 1] == y;
      }
    }
  }

  /** Consecutive points at least `minLength` apart. */
  predicate SpacedBy(points: seq<real>, minLength: real)
  {
    forall i :: 0 < i < |points| ==> points[i] - points[i - 1] >= minLength
  }

  /** The kept cuts after `last` start at least `minLength` after it and stay at least
      `minLength` apart (lines 129-132). */
  predicate Spaced(last: real, cuts: seq<real>, minLength: real)
  {
    SpacedBy([last] + cuts, minLength)
  }

  /** The sweep of lines 129-132 after the first point: keep a point when it lies at
      least `minLength` past the last kept one. */
  function KeepSpaced(last: real, rest: seq<real>, minLength: real): (r: seq<real>)
    ensures IsSubseq(r, rest)
    ensures Spaced(last, r, minLength)
    ensures |rest| > 0 && rest[0] - last >= minLength ==> |r| > 0 && r[0] == rest[0]
    decreases |rest|
  {
    if |rest| == 0 then []
    else if rest[0] - last >= minLength then
      var tail := KeepSpaced(rest[0], rest[1..], minLength);
      assert ([rest[0]] + tail)[1..] == tail;
      [rest[0]] + tail
    else KeepSpaced(last, rest[1..], minLength)
  }

  /** The last point kept so far, or `last` when none has been kept yet: the
      `filtered_points[-1]` the sweep compares against. */
  function LastOr(last: real, kept: seq<real>): real
  {
    if |kept| == 0 then last else kept[|kept| - 1]
  }

  /** Sweeping two stretches one after the other: the second starts from the last
      point the first kept. */
  lemma {:induction false} KeepSpacedAppend(last: real, a: seq<real>, b: seq<real>, minLength: real)
    ensures KeepSpaced(last, a + b, minLength)
      == KeepSpaced(last, a, minLength) + KeepSpaced(LastOr(last, KeepSpaced(last, a, minLength)), b, minLength)
    decreases |a|
  {
    if |a| == 0 {
      assert a + b == b;
    } else {
      assert (a + b)[0] == a[0] && (a + b)[1..] == a[1..] + b;
      if a[0] - last >= minLength {
        KeepSpacedAppend(a[0], a[1..], b, minLength);
        var k := KeepSpaced(a[0], a[1..], minLength);
        assert LastOr(last, [a[0]] + k) == LastOr(a[0], k);
      } else {
        KeepSpacedAppend(last, a[1..], b, minLength);
      }
    }
  }

  /** Lines 130-132 one point at a time: the `i`-th point is appended exactly when it
      lies at least `minLength` past the last point kept before it, and otherwise
      the kept points stay as they were. */
  lemma KeepSpacedStep(last: real, rest: seq<real>, minLength: real, i: nat)
    requires i < |rest|
    ensures var before := KeepSpaced(last, rest[..i], minLength);
      KeepSpaced(last, rest[..i + 1], minLength)
        == before + (if rest[i] - LastOr(last, before) >= minLength then [rest[i]] else [])
  {
    assert rest[..i + 1] == rest[..i] + [rest[i]];
    KeepSpacedAppend(last, rest[..i], [rest[i]], minLength);
    var l := LastOr(last, KeepSpaced(last, rest[..i], minLength));
    assert KeepSpaced(l, [rest[i]], minLength) == if rest[i] - l >= minLength then [rest[i]] else [] by {
      assert [rest[i]][1..] == [];
    }
  }

  /** The `for` loop of lines 129-132 over the sorted points, appending to
      `filtered_points` and comparing with its last element. */
  method SweepLoop(sorted: seq<real>, minLength: real) returns (filtered: seq<real>)
    requires |sorted| > 0
    ensures filtered == [sorted[0]] + KeepSpaced(sorted[0], sorted[1..], minLength)
  {
    filtered := [sorted[0]];
    var i := 1;
    while i < |sorted|
      invariant 1 <= i <= |sorted|
      invariant filtered == [sorted[0]] + KeepSpaced(sorted[0], sorted[1..i], minLength)
    {
      ghost var before := KeepSpaced(sorted[0], sorted[1..i], minLength);
      assert filtered[|filtered| - 1] == LastOr(sorted[0], before);
      KeepSpacedStep(sorted[0], sorted[1..], minLength, i - 1);
      assert sorted[1..][..i - 1] == sorted[1..i] && sorted[1..][..i] == sorted[1..i + 1];
      if sorted[i] - filtered[|filtered| - 1] >= minLength {
        filtered := filtered + [sorted[i]];
      }
      i := i + 1;
    }
    assert sorted[1..i] == sorted[1..];
  }

  /** Lines 129-132: the sorted cuts the sweep keeps, starting with the least. */
  function Kept(duration: real, silences: seq<Span>, minLength: real): seq<real>
  {
    var sorted := SortedCuts(duration, silences);
    [sorted[0]] + KeepSpaced(sorted[0], sorted[1..], minLength)
  }

  /** Lines 134-138: drop a last kept point that leaves less than `minLength` before
      the end, then make sure the duration is the last point. */
  function FixTail(kept: seq<real>, duration: real, minLength: real): (r: seq<real>)
    requires |kept| > 0
    ensures |r| > 0 && r[|r| - 1] == duration
  {
    var trimmed := if |kept| > 1 && duration - kept[|kept| - 1] < minLength then kept[..|kept| - 1] else kept;
    if trimmed[|trimmed| - 1] != duration then trimmed + [duration] else trimmed
  }

  /** Lines 126-138: the cut points of one video. */
  function Cuts(duration: real, silences: seq<Span>, minLength: real): seq<real>
  {
    FixTail(Kept(duration, silences, minLength), duration, minLength)
  }

  /** Lines 141-145: a segment between each two consecutive points, skipping empty ones. */
  function ToSegments(points: seq<real>): (r: seq<Span>)
    ensures forall i :: 0 <= i < |r| ==> r[i].start < r[i].end
    ensures forall i :: 0 <= i < |r| ==> r[i].start in points && r[i].end in points
  {
    if |points| < 2 then []
    else
      var rest := ToSegments(points[1..]);
      assert forall y :: y in points[1..] ==> y in points;
      if points[1] > points[0] then [Span(points[0], points[1])] + rest else rest
  }

  /** The segments of one video. */
  function BuildSegments(duration: real, silences: seq<Span>, minLength: real): seq<Span>
  {
    ToSegments(Cuts(duration, silences, minLength))
  }

  /** Every silence endpoint lies within the video, as the detector reports them. */
  predicate WithinVideo(duration: real, silences: seq<Span>)
  {
    forall k :: 0 <= k < |silences| ==>
      0.0 <= silences[k].start <= duration && 0.0 <= silences[k].end <= duration
  }

  lemma CutSetWithin(duration: real, silences: seq<Span>)
    requires duration >= 0.0
    requires WithinVideo(duration, silences)
    ensures forall x :: x in CutSet(duration, silences) ==> 0.0 <= x <= duration
  {
    EndpointsMembers(silences);
  }

  lemma SortedCutsWithin(duration: real, silences: seq<Span>)
    requires duration >= 0.0
    requires WithinVideo(duration, silences)
    ensures var s := SortedCuts(duration, silences);
      && (forall i :: 0 <= i < |s| ==> 0.0 <= s[i] <= duration)
      && 0.0 in s && duration in s
  {
    var s := SortedCuts(duration, silences);
    CutSetWithin(duration, silences);
    forall i | 0 <= i < |s| ensures 0.0 <= s[i] <= duration {
      assert s[i] in Elems(s);
    }
    assert 0.0 in Elems(s) && duration in Elems(s);
  }

  /** Strictly increasing times within [0, d] that include 0 and d run from 0 to d. */
  lemma IncreasingRange(s: seq<real>, duration: real)
    requires duration > 0.0
    requires Increasing(s)
    requires forall i :: 0 <= i < |s| ==> 0.0 <= s[i] <= duration
    requires 0.0 in s && duration in s
    ensures |s| >= 2 && s[0] == 0.0 && s[|s| - 1] == duration
  {
    var z :| 0 <= z < |s| && s[z] == 0.0;
    var w :| 0 <= w < |s| && s[w] == duration;
    assert z == 0;
    assert w == |s| - 1;
  }

  /** The sweep keeps an increasing, spaced run of the sorted points, starting with 0. */
  lemma KeepSpacedShape(s: seq<real>, duration: real, minLength: real)
    requires |s| >= 1 && s[0] == 0.0
    requires Increasing(s)
    requires forall i :: 0 <= i < |s| ==> 0.0 <= s[i] <= duration
    ensures var kept := [s[0]] + KeepSpaced(s[0], s[1..], minLength);
      && kept[0] == 0.0 && Increasing(kept) && SpacedBy(kept, minLength)
      && forall i :: 0 <= i < |kept| ==> kept[i] <= duration
  {
    var ks := KeepSpaced(s[0], s[1..], minLength);
    var kept := [s[0]] + ks;
    SubseqIncreasing(ks, s[1..]);
    SubseqMembers(ks, s[1..]);
    forall i | 0 < i < |kept| ensures 0.0 < kept[i] <= duration {
      assert kept[i] == ks[i - 1];
      assert ks[i - 1] in s[1..];
      var k :| 0 <= k < |s[1..]| && s[1..][k] == ks[i - 1];
      assert s[k + 1] == kept[i];
    }
    assert SpacedBy(kept, minLength) by {
      forall i | 0 < i < |kept| ensures kept[i] - kept[i - 1] >= minLength {
        if i > 1 {
          assert kept[i] == ks[i - 1] && kept[i - 1] == ks[i - 2];
        }
      }
    }
  }

  /** The kept points of a video, as the sweep leaves them. */
  lemma KeptShape(duration: real, silences: seq<Span>, minLength: real)
    requires duration > 0.0
    requires WithinVideo(duration, silences)
    ensures var kept := Kept(duration, silences, minLength);
      && kept[0] == 0.0 && Increasing(kept) && SpacedBy(kept, minLength)
      && forall i :: 0 <= i < |kept| ==> kept[i] <= duration
  {
    var s := SortedCuts(duration, silences);
    SortedCutsWithin(duration, silences);
    IncreasingRange(s, duration);
    KeepSpacedShape(s, duration, minLength);
  }

  /** Popping the last kept point and appending the duration keeps the points spaced
      when the popped point was spaced from its predecessor. */
  lemma PopAndAppend(kept: seq<real>, duration: real, minLength: real)
    requires |kept| > 1 && Increasing(kept) && SpacedBy(kept, minLength)
    requires kept[|kept| - 1] <= duration
    ensures var c := kept[..|kept| - 1] + [duration];
      Increasing(c) && SpacedBy(c, minLength)
  {
    var n := |kept|;
    var c := kept[..n - 1] + [duration];
    assert forall i :: 0 <= i < n - 1 ==> c[i] == kept[i];
    assert c[n - 1] == duration;
    assert Increasing(c) by {
      forall i, j | 0 <= i < j < |c| ensures c[i] < c[j] {
        if j == n - 1 {
          assert kept[i] < kept[n - 1];
        } else {
          assert kept[i] < kept[j];
        }
      }
    }
    forall i | 0 < i < |c| ensures c[i] - c[i - 1] >= minLength {
      if i == n - 1 {
        assert kept[n - 1] - kept[n - 2] >= minLength;
      } else {
        assert kept[i] - kept[i - 1] >= minLength;
      }
    }
  }

  /** Appending the duration to points that stop before it keeps them increasing. */
  lemma Append(kept: seq<real>, duration: real)
    requires |kept| > 0 && Increasing(kept)
    requires kept[|kept| - 1] < duration
    ensures Increasing(kept + [duration])
  {
    var c := kept + [duration];
    forall i, j | 0 <= i < j < |c| ensures c[i] < c[j] {
      if j == |kept| {
        assert kept[i] <= kept[|kept| - 1];
      } else {
        assert c[i] == kept[i] && c[j] == kept[j];
      }
    }
  }

  /** The tail fix-up turns increasing, spaced points from 0 into cuts from 0 to the
      duration, spaced unless the only cuts are 0 and the duration. */
  lemma FixTailShape(kept: seq<real>, duration: real, minLength: real)
    requires duration > 0.0
    requires |kept| > 0 && kept[0] == 0.0 && Increasing(kept) && SpacedBy(kept, minLength)
    requires forall i :: 0 <= i < |kept| ==> kept[i] <= duration
    ensures var c := FixTail(kept, duration, minLength);
      && |c| >= 2 && c[0] == 0.0 && Increasing(c)
      && (|c| == 2 || SpacedBy(c, minLength))
  {
    var n := |kept|;
    if n > 1 && duration - kept[n - 1] < minLength {
      PopAndAppend(kept, duration, minLength);
      assert FixTail(kept, duration, minLength) == kept[..n - 1] + [duration];
    } else if kept[n - 1] != duration {
      Append(kept, duration);
      var c := kept + [duration];
      assert c == FixTail(kept, duration, minLength);
      if n > 1 {
        assert duration - kept[n - 1] >= minLength;
        assert SpacedBy(c, minLength) by {
          forall i | 0 < i < |c| ensures c[i] - c[i - 1] >= minLength {
            if i < n {
              assert c[i] == kept[i] && c[i - 1] == kept[i - 1];
            }
          }
        }
      }
    } else {
      assert kept == FixTail(kept, duration, minLength);
      assert n > 1;
    }
  }

  /** Strictly increasing cuts from 0 to the duration, consecutive ones at least
      `minLength` apart unless the only cuts are 0 and the duration. */
  predicate CutShape(c: seq<real>, duration: real, minLength: real)
  {
    && |c| >= 2 && c[0] == 0.0 && c[|c| - 1] == duration && Increasing(c)
    && (|c| == 2 || SpacedBy(c, minLength))
  }

  /** Non-empty contiguous segments from 0 to the duration, whose lengths add up to
      the duration; all at least `minLength` long unless there is only one. */
  predicate Partition(r: seq<Span>, duration: real, minLength: real)
  {
    && |r| >= 1
    && r[0].start == 0.0 && r[|r| - 1].end == duration
    && Contiguous(r)
    && (forall i :: 0 <= i < |r| ==> r[i].start < r[i].end)
    && (|r| == 1 || forall i :: 0 <= i < |r| ==> r[i].Length() >= minLength)
    && TotalLength(r) == duration
  }

  /** Lines 126-138 cut the video from 0 to the duration; every two consecutive cuts
      are at least `minLength` apart unless the only cuts are 0 and the duration. */
  lemma CutsShape(duration: real, silences: seq<Span>, minLength: real)
    requires duration > 0.0
    requires WithinVideo(duration, silences)
    ensures CutShape(Cuts(duration, silences, minLength), duration, minLength)
  {
    KeptShape(duration, silences, minLength);
    FixTailShape(Kept(duration, silences, minLength), duration, minLength);
  }

  /** Between strictly increasing points no pair is empty, so each consecutive pair
      becomes exactly one segment. */
  lemma {:induction false} ToSegmentsIncreasing(points: seq<real>)
    requires |points| >= 1
    requires Increasing(points)
    ensures |ToSegments(points)| == |points| - 1
    ensures forall i :: 0 <= i < |points| - 1 ==> ToSegments(points)[i] == Span(points[i], points[i + 1])
  {
    if |points| >= 2 {
      ToSegmentsIncreasing(points[1..]);
      var r := ToSegments(points);
      assert r == [Span(points[0], points[1])] + ToSegments(points[1..]);
    }
  }

  /** Segments between cuts running from 0 to the duration are contiguous, non-empty,
      and as long as the cuts are spaced. */
  lemma SegmentsOfCuts(c: seq<real>, duration: real, minLength: real)
    requires CutShape(c, duration, minLength)
    ensures Partition(ToSegments(c), duration, minLength)
  {
    ToSegmentsIncreasing(c);
    SpansBetween(c, ToSegments(c), minLength);
  }

  /** Spans between consecutive points chain up from the first point to the last. */
  lemma SpansBetween(c: seq<real>, r: seq<Span>, minLength: real)
    requires |c| >= 2 && |r| == |c| - 1
    requires forall i :: 0 <= i < |c| - 1 ==> r[i] == Span(c[i], c[i + 1])
    ensures r[0].start == c[0] && r[|r| - 1].end == c[|c| - 1]
    ensures Contiguous(r)
    ensures SpacedBy(c, minLength) ==> forall i :: 0 <= i < |r| ==> r[i].Length() >= minLength
    ensures TotalLength(r) == c[|c| - 1] - c[0]
  {
    assert r[0] == Span(c[0], c[1]);
    assert r[|r| - 1] == Span(c[|c| - 2], c[|c| - 1]);
    assert Contiguous(r) by {
      forall i | 0 < i < |r| ensures r[i - 1].end == r[i].start {
        assert r[i - 1] == Span(c[i - 1], c[i]) && r[i] == Span(c[i], c[i + 1]);
      }
    }
    if SpacedBy(c, minLength) {
      forall i | 0 <= i < |r| ensures r[i].Length() >= minLength {
        assert r[i] == Span(c[i], c[i + 1]);
      }
    }
    ContiguousTotalLength(r);
  }

  /** The segments cut the whole video, 0 to the duration, into contiguous non-empty
      pieces; all are at least `minLength` long unless there is only the one. */
  lemma BuildSegmentsPartition(duration: real, silences: seq<Span>, minLength: real)
    requires duration > 0.0
    requires WithinVideo(duration, silences)
    ensures Partition(BuildSegments(duration, silences, minLength), duration, minLength)
  {
    CutsShape(duration, silences, minLength);
    SegmentsOfCuts(Cuts(duration, silences, minLength), duration, minLength);
  }

  /** Every instant of a non-empty video lies in some segment, wherever the detector
      put the silences: the cuts start at or before 0 and end at the duration. */
  lemma BuildSegmentsCover(duration: real, silences: seq<Span>, minLength: real, t: real)
    requires duration > 0.0
    requires 0.0 <= t <= duration
    ensures InSegment(BuildSegments(duration, silences, minLength), t)
  {
    var c := Cuts(duration, silences, minLength);
    CutsEnds(duration, silences, minLength);
    SegmentsCoverPoints(c, t);
    assert BuildSegments(duration, silences, minLength) == ToSegments(c);
  }

  /** The cuts begin at or before 0 and end at the duration, for any silences. */
  lemma CutsEnds(duration: real, silences: seq<Span>, minLength: real)
    ensures var c := Cuts(duration, silences, minLength);
      c[0] <= 0.0 && c[|c| - 1] == duration
  {
    var s := SortedCuts(duration, silences);
    assert 0.0 in Elems(s);
    var k :| 0 <= k < |s| && s[k] == 0.0;
    assert s[0] <= s[k];
    var kept := Kept(duration, silences, minLength);
    assert kept[0] == s[0];
    FixTailFirst(kept, duration, minLength);
  }

  /** The tail fix-up never touches the first point. */
  lemma FixTailFirst(kept: seq<real>, duration: real, minLength: real)
    requires |kept| > 0
    ensures FixTail(kept, duration, minLength)[0] == kept[0]
  {
    var n := |kept|;
    if n > 1 && duration - kept[n - 1] < minLength {
      assert kept[..n - 1][0] == kept[0];
    }
  }

  /** Some segment holds the instant `t`. */
  predicate InSegment(r: seq<Span>, t: real)
  {
    exists i :: 0 <= i < |r| && r[i].start <= t <= r[i].end
  }

  /** Between a first point and a larger last point, every instant lies in a segment
      of consecutive points, whatever order the points in between come in. */
  lemma {:induction false} SegmentsCoverPoints(p: seq<real>, t: real)
    requires |p| >= 1 && p[0] <= t <= p[|p| - 1] && p[0] < p[|p| - 1]
    ensures InSegment(ToSegments(p), t)
    decreases |p|
  {
    var r := ToSegments(p);
    var rest := ToSegments(p[1..]);
    if p[1] > p[0] && t <= p[1] {
      assert r == [Span(p[0], p[1])] + rest;
      assert r[0].start <= t <= r[0].end;
    } else {
      assert p[1..][|p[1..]| - 1] == p[|p| - 1];
      SegmentsCoverPoints(p[1..], t);
      var i :| 0 <= i < |rest| && rest[i].start <= t <= rest[i].end;
      if p[1] > p[0] {
        assert r == [Span(p[0], p[1])] + rest;
        assert r[i + 1] == rest[i];
      } else {
        assert r == rest;
      }
    }
  }

  /** The sweep keeps only points of the sorted list. */
  lemma KeptMembers(s: seq<real>, minLength: real)
    requires |s| > 0
    ensures forall x :: x in [s[0]] + KeepSpaced(s[0], s[1..], minLength) ==> x in s
  {
    var ks := KeepSpaced(s[0], s[1..], minLength);
    SubseqMembers(ks, s[1..]);
    forall x | x in [s[0]] + ks ensures x in s {
      if x != s[0] {
        assert x in ks;
        var k :| 0 <= k < |s[1..]| && s[1..][k] == x;
        assert s[k + 1] == x;
      }
    }
  }

  /** The tail fix-up adds nothing but the duration. */
  lemma FixTailMembers(kept: seq<real>, duration: real, minLength: real)
    requires |kept| > 0
    ensures forall x :: x in FixTail(kept, duration, minLength) ==> x in kept || x == duration
  {
    var n := |kept|;
    if n > 1 && duration - kept[n - 1] < minLength {
      forall x | x in kept[..n - 1] ensures x in kept {
        var k :| 0 <= k < n - 1 && kept[..n - 1][k] == x;
        assert kept[k] == x;
      }
    }
  }

  /** Every segment boundary is 0, the duration or a silence endpoint, whatever the input. */
  lemma BuildSegmentsBoundaries(duration: real, silences: seq<Span>, minLength: real)
    ensures var r := BuildSegments(duration, silences, minLength);
      forall i :: 0 <= i < |r| ==>
        r[i].start in CutSet(duration, silences) && r[i].end in CutSet(duration, silences)
  {
    var s := SortedCuts(duration, silences);
    KeptMembers(s, minLength);
    var kept := Kept(duration, silences, minLength);
    FixTailMembers(kept, duration, minLength);
    var c := Cuts(duration, silences, minLength);
    forall x | x in c ensures x in CutSet(duration, silences) {
      if x != duration {
        assert x in kept;
        assert x in Elems(s);
      }
    }
  }

  /** Without silences the sorted cuts are 0 and the duration, or just 0 when the
      duration is 0. */
  lemma SortedCutsNoSilence(duration: real)
    requires duration >= 0.0
    ensures SortedCuts(duration, []) == if duration > 0.0 then [0.0, duration] else [0.0]
  {
    if duration > 0.0 {
      assert Insert([0.0], duration) == [0.0] + Insert([], duration);
    }
  }

  /** Without silences the whole video is one segment; an empty video has none. */
  lemma BuildSegmentsNoSilence(duration: real, minLength: real)
    requires duration >= 0.0
    ensures duration > 0.0 ==> BuildSegments(duration, [], minLength) == [Span(0.0, duration)]
    ensures duration == 0.0 ==> BuildSegments(duration, [], minLength) == []
  {
    SortedCutsNoSilence(duration);
    if duration > 0.0 {
      NoSilenceCuts(duration, minLength);
      assert ToSegments([0.0, duration]) == [Span(0.0, duration)] + ToSegments([duration]);
    } else {
      assert Kept(duration, [], minLength) == [0.0] + KeepSpaced(0.0, [], minLength);
      assert Cuts(duration, [], minLength) == FixTail([0.0], duration, minLength);
    }
  }

  lemma NoSilenceCuts(duration: real, minLength: real)
    requires duration > 0.0
    requires SortedCuts(duration, []) == [0.0, duration]
    ensures Cuts(duration, [], minLength) == [0.0, duration]
  {
    var kept := Kept(duration, [], minLength);
    assert [0.0, duration][1..] == [duration];
    assert kept == [0.0] + KeepSpaced(0.0, [duration], minLength);
    assert KeepSpaced(duration, [], minLength) == [];
    if duration >= minLength {
      assert kept == [0.0, duration];
      if minLength > 0.0 {
        assert FixTail(kept, duration, minLength) == [0.0] + [duration];
      } else {
        assert FixTail(kept, duration, minLength) == kept;
      }
    } else {
      assert kept == [0.0];
      assert FixTail(kept, duration, minLength) == [0.0] + [duration];
    }
  }
}

=== FILE: spans.dfy ===
/** Time spans in seconds and the sequence facts the slicer relies on.
    A `Span` is both a silence interval (offset, onset) and a playable
    segment (start, end); the slicer keeps both as plain pairs of times. */
module Spans {

  datatype Span = Span(start: real, end: real) {
    function Length(): real { end - start }
  }

  /** The start times of a list of spans, in order. */
  function Starts(s: seq<Span>): (r: seq<real>)
    ensures |r| == |s|
    ensures forall i :: 0 <= i < |s| ==> r[i] == s[i].start
  {
    if |s| == 0 then [] else [s[0].start] + Starts(s[1..])
  }

  /** The end times of a list of spans, in order. */
  function Ends(s: seq<Span>): (r: seq<real>)
    ensures |r| == |s|
    ensures forall i :: 0 <= i < |s| ==> r[i] == s[i].end
  {
    if |s| == 0 then [] else [s[0].end] + Ends(s[1..])
  }

  /** The elements of a sequence, as a set. */
  function Elems<T>(s: seq<T>): set<T>
  {
    set x | x in s
  }

  /** Strictly increasing times: sorted and free of duplicates. */
  predicate Increasing(s: seq<real>)
  {
    forall i, j :: 0 <= i < j < |s| ==> s[i] < s[j]
  }

  /** `a` is an order-preserving subsequence of `b`. */
  predicate IsSubseq<T(==)>(a: seq<T>, b: seq<T>)
    decreases |b|
  {
    if |a| == 0 then true
    else if |b| == 0 then false
    else (a[0] == b[0] && IsSubseq(a[1..], b[1..])) || IsSubseq(a, b[1..])
  }

  lemma {:induction false} SubseqLength<T>(a: seq<T>, b: seq<T>)
    requires IsSubseq(a, b)
    ensures |a| <= |b|
    decreases |b|
  {
    if |a| > 0 {
      if a[0] == b[0] && IsSubseq(a[1..], b[1..]) {
        SubseqLength(a[1..], b[1..]);
      } else {
        SubseqLength(a, b[1..]);
      }
    }
  }

  /** A subsequence of a suffix is a subsequence of the whole. */
  lemma {:induction false} SubseqOfSuffix<T>(a: seq<T>, b: seq<T>, k: nat)
    requires k <= |b|
    requires IsSubseq(a, b[k..])
    ensures IsSubseq(a, b)
    decreases k
  {
    if k > 0 && |a| > 0 {
      assert b[1..][k - 1..] == b[k..];
      SubseqOfSuffix(a, b[1..], k - 1);
    }
  }

  /** Every element of a subsequence occurs in the sequence. */
  lemma {:induction false} SubseqMembers<T>(a: seq<T>, b: seq<T>)
    requires IsSubseq(a, b)
    ensures forall x :: x in a ==> x in b
    decreases |b|
  {
    if |a| > 0 {
      if a[0] == b[0] && IsSubseq(a[1..], b[1..]) {
        SubseqMembers(a[1..], b[1..]);
        forall x | x in a ensures x in b {
          if x != a[0] {
            assert x in a[1..];
          }
        }
      } else {
        SubseqMembers(a, b[1..]);
      }
    }
  }

  /** A subsequence of strictly increasing times is strictly increasing. */
  lemma {:induction false} SubseqIncreasing(a: seq<real>, b: seq<real>)
    requires IsSubseq(a, b)
    requires Increasing(b)
    ensures Increasing(a)
    decreases |b|
  {
    if |a| > 0 {
      if a[0] == b[0] && IsSubseq(a[1..], b[1..]) {
        SubseqIncreasing(a[1..], b[1..]);
        SubseqMembers(a[1..], b[1..]);
        forall j | 0 < j < |a| ensures a[0] < a[j] {
          assert a[j] == a[1..][j - 1];
          assert a[j] in b[1..];
        }
      } else {
        SubseqIncreasing(a, b[1..]);
      }
    }
  }

  /** Each span's end is the next span's start: no gap and no overlap. */
  predicate Contiguous(s: seq<Span>)
  {
    forall i :: 0 < i < |s| ==> s[i - 1].end == s[i].start
  }

  /** Sum of the lengths of a list of spans. */
  function TotalLength(s: seq<Span>): real
  {
    if |s| == 0 then 0.0 else s[0].Length() + TotalLength(s[1..])
  }

  /** The lengths of a contiguous chain of spans telescope to its overall extent. */
  lemma {:induction false} ContiguousTotalLength(s: seq<Span>)
    requires Contiguous(s)
    requires |s| > 0
    ensures TotalLength(s) == s[|s| - 1].end - s[0].start
  {
    if |s| > 1 {
      assert Contiguous(s[1..]) by {
        forall i | 0 < i < |s[1..]| ensures s[1..][i - 1].end == s[1..][i].start {
          assert s[1..][i - 1] == s[i] && s[1..][i] == s[i + 1];
        }
      }
      ContiguousTotalLength(s[1..]);
      assert s[1..][0] == s[1];
    }
  }
}

=== FILE: timecode.dfy ===
/** The current revision's `format_time`, from the rounded millisecond count on:
    a non-negative number of milliseconds becomes the `HH:MM:SS.mmm` timecode
    used for every in/out/length attribute of the project document. Line numbers
    in the comments below refer to `smart_silence_slicer.py`. */
module Timecode {
  import opened Digits

  datatype Option<T> = None | Some(value: T)

  /** The four fields of a timecode. Hours are unbounded: they never wrap at 24 or 100. */
  datatype Clock = Clock(hours: nat, minutes: nat, seconds: nat, millis: nat)

  predicate Normal(c: Clock)
  {
    c.minutes < 60 && c.seconds < 60 && c.millis < 1000
  }

  /** The number of milliseconds a clock reading denotes. */
  function ClockMillis(c: Clock): nat
  {
    c.hours * 3_600_000 + c.minutes * 60_000 + c.seconds * 1000 + c.millis
  }

  /** Euclidean division is unique: a quotient and a remainder in `[0, d)` that
      recombine to `a` are `a / d` and `a % d`. */
  lemma DivMod(a: int, d: int, q: int, r: int)
    requires d > 0 && a == d * q + r && 0 <= r < d
    ensures a / d == q && a % d == r
  {
    var q0, r0 := a / d, a % d;
    var k := q0 - q;
    assert d * k == r - r0 by {
      assert a == d * q0 + r0;
      assert d * k == d * q0 - d * q;
    }
  }

  /** Splits a millisecond count into hours, minutes, seconds and milliseconds,
      by the floor divisions and remainders of `format_time`. */
  function Split(total: nat): (c: Clock)
    ensures Normal(c)
    ensures ClockMillis(c) == total
  {
    var secs := total / 1000;
    var c := Clock(secs / 3600, (secs % 3600) / 60, secs % 60, total % 1000);
    assert ClockMillis(c) == total by {
      var r := secs % 3600;
      assert secs == 3600 * c.hours + r;
      assert r == 60 * c.minutes + r % 60;
      DivMod(secs, 60, 60 * c.hours + c.minutes, r % 60);
      assert total == 1000 * secs + c.millis;
    }
    c
  }

  /** A normal clock reading is the only one that denotes its millisecond count. */
  lemma SplitUnique(c: Clock)
    requires Normal(c)
    ensures Split(ClockMillis(c)) == c
  {
    var total := ClockMillis(c);
    var secs := c.hours * 3600 + c.minutes * 60 + c.seconds;
    DivMod(total, 1000, secs, c.millis);
    DivMod(secs, 3600, c.hours, c.minutes * 60 + c.seconds);
    DivMod(c.minutes * 60 + c.seconds, 60, c.minutes, c.seconds);
    DivMod(secs, 60, c.hours * 60 + c.minutes, c.seconds);
  }

  /** The fixed-width part `:MM:SS.mmm` after the hours. */
  function MinutesOn(m: string, sec: string, ms: string): string
  {
    ":" + m + ":" + sec + "." + ms
  }

  /** `f"{h:02d}:{m:02d}:{s:02d}.{millis:03d}"` of the split count. */
  function Format(total: nat): string
  {
    var c := Split(total);
    PadZeros(Decimal(c.hours), 2)
      + MinutesOn(PadZeros(Decimal(c.minutes), 2), PadZeros(Decimal(c.seconds), 2), PadZeros(Decimal(c.millis), 3))
  }

  /** Reads a timecode back into milliseconds: at least two hour digits, then
      `:MM:SS.mmm` with exactly two, two and three digits. */
  function Parse(s: string): Option<nat>
  {
    if |s| < 12 then None else ParseFields(s[..|s| - 10], s[|s| - 10..])
  }

  /** Reads the hour digits and the ten characters `:MM:SS.mmm` that follow them. */
  function ParseFields(hh: string, tail: string): Option<nat>
    requires |tail| == 10
  {
    var mm, ss, ms := tail[1..3], tail[4..6], tail[7..];
    if tail[0] == ':' && tail[3] == ':' && tail[6] == '.'
       && AllDigits(hh) && AllDigits(mm) && AllDigits(ss) && AllDigits(ms)
    then Some(Value(hh) * 3_600_000 + Value(mm) * 60_000 + Value(ss) * 1000 + Value(ms))
    else None
  }

  /** A field below `Pow10(width)` renders as exactly `width` digits of the same value. */
  lemma PaddedField(n: nat, width: nat)
    requires width >= 1
    requires n < Pow10(width)
    ensures AllDigits(PadZeros(Decimal(n), width))
    ensures |PadZeros(Decimal(n), width)| == width
    ensures Value(PadZeros(Decimal(n), width)) == n
  {
    DecimalLength(n, width);
    PadZerosValue(Decimal(n), width);
    ValueOfDecimal(n);
  }

  /** The layout `H…H:MM:SS.mmm` reads back as the value of its four digit fields. */
  lemma ParseLayout(h: string, m: string, sec: string, ms: string)
    requires |h| >= 2 && |m| == 2 && |sec| == 2 && |ms| == 3
    requires AllDigits(h) && AllDigits(m) && AllDigits(sec) && AllDigits(ms)
    ensures Parse(h + MinutesOn(m, sec, ms))
            == Some(Value(h) * 3_600_000 + Value(m) * 60_000 + Value(sec) * 1000 + Value(ms))
  {
    ParseTail(h, m, sec, ms);
    SplitTen(h, MinutesOn(m, sec, ms));
  }

  /** A string that ends in ten characters splits there into its two parts. */
  lemma SplitTen(h: string, tail: string)
    requires |h| >= 2 && |tail| == 10
    ensures var f := h + tail; |f| >= 12 && f[..|f| - 10] == h && f[|f| - 10..] == tail
  {
  }

  lemma ParseTail(h: string, m: string, sec: string, ms: string)
    requires |m| == 2 && |sec| == 2 && |ms| == 3
    requires AllDigits(h) && AllDigits(m) && AllDigits(sec) && AllDigits(ms)
    ensures |MinutesOn(m, sec, ms)| == 10
    ensures ParseFields(h, MinutesOn(m, sec, ms))
            == Some(Value(h) * 3_600_000 + Value(m) * 60_000 + Value(sec) * 1000 + Value(ms))
  {
    MinutesOnShape(m, sec, ms);
    var t := MinutesOn(m, sec, ms);
    var mm, ss, mss := t[1..3], t[4..6], t[7..];
    assert mm == m && ss == sec && mss == ms;
    assert AllDigits(mm) && AllDigits(ss) && AllDigits(mss);
    assert Value(mm) == Value(m);
    assert Value(ss) == Value(sec);
    assert Value(mss) == Value(ms);
  }

  lemma MinutesOnShape(m: string, sec: string, ms: string)
    requires |m| == 2 && |sec| == 2 && |ms| == 3
    ensures var t := MinutesOn(m, sec, ms);
      && |t| == 10 && t[0] == ':' && t[3] == ':' && t[6] == '.'
      && t[1..3] == m && t[4..6] == sec && t[7..] == ms
  {
    var t := MinutesOn(m, sec, ms);
    assert t[1..3] == m;
    assert t[4..6] == sec;
    assert t[7..] == ms;
  }

  /** Parsing a formatted timecode gives back the millisecond count. */
  lemma ParseFormat(total: nat)
    ensures Parse(Format(total)) == Some(total)
  {
    var c := Split(total);
    PadZerosValue(Decimal(c.hours), 2);
    ValueOfDecimal(c.hours);
    assert Pow10(2) == 100 && Pow10(3) == 1000 by {
      assert Pow10(1) == 10;
    }
    PaddedField(c.minutes, 2);
    PaddedField(c.seconds, 2);
    PaddedField(c.millis, 3);
    ParseLayout(PadZeros(Decimal(c.hours), 2), PadZeros(Decimal(c.minutes), 2),
                PadZeros(Decimal(c.seconds), 2), PadZeros(Decimal(c.millis), 3));
    assert ClockMillis(c) == total;
  }

  /** Distinct millisecond counts never share a timecode. */
  lemma FormatInjective(a: nat, b: nat)
    requires Format(a) == Format(b)
    ensures a == b
  {
    ParseFormat(a);
    ParseFormat(b);
  }

  /** The timecode is the fixed 12 characters `HH:MM:SS.mmm` below 100 hours and
      grows by hour digits beyond; hours are never wrapped. */
  lemma FormatWidth(total: nat)
    ensures |Format(total)| >= 12
    ensures |Format(total)| == 12 <==> total < 360_000_000
    ensures Split(total).hours == total / 3_600_000
  {
    var c := Split(total);
    assert Pow10(2) == 100 && Pow10(3) == 1000 by {
      assert Pow10(1) == 10;
    }
    PaddedField(c.minutes, 2);
    PaddedField(c.seconds, 2);
    PaddedField(c.millis, 3);
    PadZerosValue(Decimal(c.hours), 2);
    DecimalLength(c.hours, 2);
    var secs := total / 1000;
    assert secs == c.hours * 3600 + c.minutes * 60 + c.seconds by {
      DivMod(total, 1000, c.hours * 3600 + c.minutes * 60 + c.seconds, c.millis);
    }
    assert total == 3_600_000 * c.hours + (c.minutes * 60_000 + c.seconds * 1000 + c.millis);
  }
}
